=== FILE: README.md ===
# Plotting core of the MCTS prototype, modelled in Dafny

`plot.py` plots how a Monte Carlo tree search for a symbolic expression progresses. During a search, every iteration writes a log file named `<iteration>.csv` in a log directory. That file holds:
- the iteration's best expression, on line 1;
- its mean squared error, on line 2;
- one `x fx` point per later line.

A file whose path contains `objective` holds the target expression in the same format.

This project models the non-graphical part of the script: the text and index logic that decides what gets drawn, in which order, under which legend, and into which saved file.

- `Records` (`records.dfy`): `parseExpressionFile` and the reading loop of `plotSearchStep`.
  - A file is given as its lines.
  - The space-delimited csv reader is `Text.Fields`.
  - All values stay text.
  - Errors name the 1-based line at which Python's `next()` or a row index would raise.
- `Collector` (`collector.dfy`):
  - `fetchObjective`: the last listed path containing `objective` wins.
  - `fetchExpressions`: each file goes under the key `int()` of its name between the last `/` and the last `.csv`.
  - In both, the directory listing is a sequence of paths and reading one file is a function parameter.
- `Overlay` (`overlay.dfy`): `plotAll`.
  - Sampling of the sorted iterations with `np.linspace(1, n-1, n*0.5, dtype=int)`.
  - Pairing with `m+1` colours by `zip`, which truncates to `m`.
  - Legend labels, the dashed objective drawn last, and the saved name.
- `Grid` (`grid.dfy`): `plotTwoByTwo`.
  - Every iteration in ascending order gets one subplot of a 3 x 2 grid, with codes 321 to 326.
  - A page is saved after each sixth subplot, and once more at the end.
- `Text`, `Integers`, `Ordering`: the Python built-ins the script relies on.
  - `" ".join`, `str.split()`, `rfind` and slicing with negative bounds.
  - `int()` on text and `str()` of an integer.
  - `sorted` on the keys of a dict.

Two behaviours are modelled as the code has them:
- Pages: `plotTwoByTwo` saves `n/6 + 1` pages for `n` iterations, because the final save happens even when the last page is empty (n a multiple of 6, including n = 0). So the number of pages is not the number of sixes of iterations rounded up: with 12 iterations there are three pages, the last one empty.
- Objective read order: `fetchObjective` reads every matching path in listing order, not only the last one. So a malformed earlier objective file aborts the scan even though a later one would replace it.

`np.linspace` with `dtype=int` becomes the exact integer formula `lo + (i*(hi-lo)) / (m-1)` for `m >= 2`, and `[lo]` for `m = 1`. Here `m = n / 2`, the default `plots = 0.5`.

## Model

Some members are plain definitions and have no row of their own: Python slicing (`Text.Slice`, `Text.SliceBound`), `zip` (`Overlay.Zip`), the colour ramp (`Overlay.Colours`), the file-system reader (`Collector.ReadRecord`) and the work done for one listed file (`Collector.LoadIteration`). The rows of the lemmas and scans built on them state their behaviour.

| member | source | states |
|---|---|---|
| Records.ParseExpressionFile | plot.py:9-21 | It succeeds exactly when there are at least two lines, line 2 is non-empty, and every later line has at least two fields. Fewer than two lines fails at the missing line, and an empty line 2 fails at line 2. On success: the expression is line 1 verbatim, the MSE is field 0 of line 2, and `x`/`fx` are fields 0/1 of every later line, in file order and of equal length. |
| Records.DataColumns | plot.py:18-20 | It succeeds iff every row has at least two fields, giving field 0 and field 1 of each row. Otherwise it fails at the first short row, naming its line number. |
| Records.ExtraFieldsIgnored | plot.py:16-20 | Two files that agree on line 1, on the first field of line 2 and on the first two fields of every later line parse to the same record. Extra fields are ignored. |
| Records.ParseSearchLog | plot.py:104-109 | The same data-row rule after a single header line. It succeeds iff there is a line 1 and every later line has at least two fields. The header comes back verbatim, and `x`/`fx` are fields 0/1 of each later line. |
| Records.ParseRendered | plot.py:9-21 | Writing a record as a log file and parsing the file gives the record back. This holds when the MSE is one non-empty field and every `x`/`fx` value is a field without spaces. |
| Text.JoinFields | plot.py:12-14 | `" ".join` of a line's csv fields is the line itself, whatever spaces it holds. |
| Text.FieldsJoin | plot.py:12-14 | Splitting fields joined by single spaces gives the fields back. This needs no field to contain a space, and the fields must not be the single empty field, since `[""]` joins to the empty line, which has no fields. This is the inverse of `JoinFields`. |
| Text.Fields | plot.py:12 | An empty line yields no fields. No field of a line contains a space. |
| Text.FirstField | plot.py:12 | A line that starts with a space-free word and a space has that word as its first field, followed by the rest cut at every space. |
| Text.JoinSplitAt | plot.py:12-14 | Joining the pieces of a split with the separator restores the text. |
| Text.SplitAtJoin | plot.py:12-14 | Splitting a join of separator-free pieces restores the pieces. |
| Text.Words | plot.py:68 | `str.split()` yields non-empty words that contain no whitespace. `WordsAtWhitespace` and `WordsOfWord` determine it on every input. |
| Text.WordsAtWhitespace | plot.py:68 | A whitespace character splits the text into the words before it followed by the words after it. |
| Text.WordsOfWord | plot.py:68 | Text without whitespace is one word, or no word when it is empty. |
| Text.SplitAtSeparator | plot.py:12 | Cutting at a separator character gives the pieces before it followed by the pieces after it. |
| Text.WordsJoin | plot.py:68 | `str.split()` of non-empty whitespace-free words joined by single spaces gives the words back. |
| Text.NonEmpty | plot.py:68 | The pieces kept are exactly the non-empty ones, and a single piece is kept iff it is non-empty. With `NonEmptyConcat` this fixes their order and multiplicity. |
| Text.NonEmptyConcat | plot.py:68 | Dropping empty pieces from two sequences one after the other gives the two results one after the other. With `NonEmpty` on a single piece, this keeps every non-empty piece in order, with repeats. |
| Text.FindLast | plot.py:39 | `rfind` returns an occurrence with none after it. It returns -1 exactly when there is no occurrence. |
| Text.ContainsOccurs | plot.py:27 | The `in` test on strings holds iff the pattern occurs at some index. |
| Collector.ReadRendered | plot.py:9-21 | Reading a path that holds a written record gives the record back. |
| Collector.ScanLastMatch | plot.py:25-31 | For any reader and any test on paths: it reports `ObjectiveNotFound` iff no path passes the test. It succeeds iff some path passes and every passing path reads. The result is the record of the last passing path. A read failure is the error of the first passing path that cannot be read, and no `InvalidKey` arises. |
| Collector.FetchObjective | plot.py:23-31 | For any reader: it fails with `ObjectiveNotFound` iff no path contains `objective`. It succeeds iff some path matches and every matching path reads. The result is the record of the last matching path. A read failure is the first failing match's error. |
| Collector.CollectIterations | plot.py:33-41 | It succeeds iff every file loads. The map's keys are exactly the keys of the files. Each key maps to the record of the last file bearing it. A failure is the first failing file's error. A file is read before its key is taken, as the right-hand side of `d[int(it)] = parse(f)` is evaluated first, so a file that cannot be read reports the read failure even when its name is not an integer. |
| Collector.FetchExpressions | plot.py:33-41 | The same as `CollectIterations`, with keys read by `int()` from each file's name. |
| Collector.Stem | plot.py:39 | The stem is a prefix of the text that follows the last slash of the path (the whole path when it has none), so it contains no slash. The end bound is `rfind(".csv")` under Python slicing: `StemOfLogPath` and `StemWithoutExtension` give the stem when `.csv` is present and when it is absent. |
| Collector.IterationKey | plot.py:39-40 | A key is read iff the stripped stem is a decimal, with or without a sign, so a stem that is not an integer yields no key, which a scan reports as `InvalidKey`. A key is read only from a stem that contains a digit, and a negative key only from one that contains a minus sign. |
| Collector.StemOfLogPath | plot.py:39 | The text between the last `/` and the last `.csv` of `dir/name.csv` is `name`, for any directory when `name` has no slash. |
| Collector.StemWithoutExtension | plot.py:39 | When the whole path `dir/name` contains no `.csv` (the directory included), `rfind` returns -1 and the stem is the name without its last character. |
| Collector.IterationKeyOfLogPath | plot.py:39-40 | The log `dir/<k>.csv` is filed under iteration `k`. |
| Text.FindLastIs | plot.py:39 | An occurrence with no occurrence after it is what `rfind` returns. |
| Integers.NoSlashInNumber | plot.py:39-40 | The decimal text of an integer contains no slash. |
| Integers.ParseIntToString | plot.py:40 | `int(str(k)) == k` for every integer `k`. |
| Integers.ParseInt | plot.py:40 | `int()` accepts text iff, once stripped, it is a decimal (digits, single underscores between digits) with an optional `+` or `-` in front. So `"1.5"`, `"1__2"` and `"+-3"` are rejected. An unsigned or `+`-signed decimal reads as its value. A negative value needs a leading minus. |
| Integers.IntToString | plot.py:58 | `str()` of an integer starts with a minus exactly when it is negative. Every other character is a digit, and there is at least one digit and no leading zero. |
| Integers.ParseIntRejectsLeadingSeparator | plot.py:40 | `int()` rejects text that starts with one of the ASCII separators U+001C to U+001F. `str.split()` treats these as whitespace, but `int()` does not skip them. |
| Integers.ParseIntIgnoresSurroundingSpace | plot.py:40 | `int()` reads the same value, or rejects the text alike, with a space added on either side. |
| Integers.ParseIntOfDecimal | plot.py:40 | `int()` of an unsigned stripped decimal is its value. |
| Integers.ParseIntOfNegative | plot.py:40 | `int()` of a stripped `-` followed by a decimal is the negated value. |
| Integers.DecimalValueOfNat | plot.py:40 | The digits `str()` writes for a natural number are a decimal `int()` accepts, and they have that number's value. |
| Integers.NatToString | plot.py:58 | `str()` of a natural number is a non-empty string of ASCII digits with no leading zero. |
| Integers.StripLeft | plot.py:40 | Removes exactly the leading characters `int()` skips: ASCII whitespace and the non-ASCII whitespace. |
| Integers.StripRight | plot.py:40 | Removes exactly the trailing characters `int()` skips. |
| Ordering.SortedKeys | plot.py:45 | `sorted(data.keys())` has as many entries as there are keys, every key among them and nothing else. |
| Ordering.SortedKeysIncreasing | plot.py:45 | The sorted keys strictly increase. |
| Ordering.Least | plot.py:45 | The smallest key of a non-empty key set is in the set and below every other key. |
| Ordering.LastIsLargest | plot.py:45 | In a strictly increasing sequence every element is at most the last. |
| Overlay.Linspace | plot.py:47 | Exactly `m` values, all within `[lo, hi]`. The first is `lo`, and the last is `hi` when `m >= 2`. |
| Overlay.Point | plot.py:47 | Each evenly spaced point lies within `[lo, hi]`. |
| Overlay.LinspaceTruncates | plot.py:47 | Each value is the exact point truncated, not rounded. |
| Overlay.LinspaceMonotone | plot.py:47 | The values never decrease. |
| Overlay.LinspaceStrictlyIncreasing | plot.py:47 | When the range is at least as wide as the number of gaps, the values strictly increase. |
| Overlay.SamplePositions | plot.py:47 | `n/2` positions, each in `[1, n-1]`. For `n >= 4` the first is 1 and the last is `n-1`. For `n` of 2 or 3 the only position is 1. |
| Overlay.SamplePositionsIncreasing | plot.py:47 | No position is sampled twice, and positions come in ascending order. |
| Overlay.DrawnIterations | plot.py:45-53 | `n/2` iterations of the data are drawn, each the sorted key at its sampled position. |
| Overlay.DrawnIterationsAscending | plot.py:45-53 | The drawn iterations strictly increase, so none is drawn twice. |
| Overlay.SmallestIterationNeverDrawn | plot.py:47-53 | Every drawn iteration has a smaller one in the data, because sampling starts at position 1. |
| Overlay.LargestIterationDrawnLast | plot.py:47-53 | From four iterations on, the last drawn iteration is the largest. |
| Overlay.ZipWithColours | plot.py:50-52 | `zip` of `m` positions with the `m+1` colours of the ramp stops at the shorter sequence. This gives `m` pairs, the `i`-th position with colour step `i` of `m`, so the last colour is never used. |
| Overlay.SampledCurves | plot.py:52-59 | Exactly `n/2` curves, the `i`-th being the `i`-th sampled position's record in the `i`-th colour. |
| Overlay.SampledCurveFields | plot.py:52-59 | The `i`-th sampled curve is labelled with the `i`-th sampled position, shows the x and f(x) values of the `i`-th drawn iteration, and is drawn in the `i`-th ramp colour. |
| Overlay.PlotAll | plot.py:43-68 | `n/2 + 1` curves. Each sampled curve carries the label `"<position> - <expr> (MSE: <mse>)"` and the data of its drawn iteration in its ramp colour. The position is the index in the sorted keys, not the iteration. The objective comes last, dashed, with its expression as legend. The name is `OverlayName`. |
| Overlay.OverlayLabel | plot.py:58 | The first field of a sampled curve's legend entry reads back as its position. |
| Overlay.OverlayName | plot.py:68 | The saved name starts with `All_Functions` and contains no whitespace. |
| Overlay.OverlayNameOfWords | plot.py:68 | For an expression of words separated by single spaces, the name is `All_Functions` directly followed by the words joined by `_`, with no separator after the prefix. |
| Grid.ExpectedPanel | plot.py:75-86 | The `k`-th subplot shows an iteration of the data, in a subplot code from 321 to 326. |
| Grid.ObjectiveLegendFields | plot.py:71 | The objective's legend entry is the field `Objective` followed by fields that re-join to the objective's expression. |
| Grid.PanelLegendNumber | plot.py:85 | The first field of an iteration's legend entry is its iteration number followed by a colon, and the number reads back as the iteration. |
| Grid.PageNameNumber | plot.py:90-93 | A page's name is `Two_by_two_` followed by its number, which reads back, so no two pages share a name. |
| Grid.PlotTwoByTwo | plot.py:70-93 | `n/6 + 1` pages named `Two_by_two_1`, `Two_by_two_2`, and so on. Every page but the last holds 6 subplots, and the last holds `n % 6`, so it is empty iff `n` is a multiple of 6. Read in page order, the subplots are exactly one per iteration in ascending order. Each has code `321 + k % 6` and the legends `("Objective " + objective, "<iteration>: <expr> (MSE: <mse>)")`. |
| Grid.DrawStep | plot.py:76-92 | Drawing one more subplot keeps the drawn pages and the open page equal to the expected prefix. When the sixth cell fills, the page is saved under the next number. |
| Grid.DrawFinish | plot.py:93 | The final save gives `n/6 + 1` pages holding every subplot, the last page holding `n % 6`. |
| Grid.DrawnPanel | plot.py:76-86 | The subplot drawn for the `k`-th key at cell `r` of page `q` is the expected one. |
| Grid.CellOf | plot.py:88-92 | Cell `r` after `q` full pages is subplot `6q + r`, and conversely. |
| Grid.PanelPlacement | plot.py:72-92 | The `k`-th iteration is cell `k % 6` of page `k / 6` (saved as `Two_by_two_<k/6 + 1>`), with subplot code `321 + k % 6`. |
| Grid.PanelsAscending | plot.py:75 | The subplots show iterations in strictly ascending order, so none is drawn twice. |
| Grid.PanelsCoverData | plot.py:75 | An iteration has a subplot iff it is in the data. |

## Left out

- All matplotlib work: `plt.plot`, `plt.step`, `subplot`, `legend`, `grid`, axis labels, the `jet` colour values and `displayAndSave`. It is rendering, and its internals are not visible. A page or figure is modelled as the list of curves or subplots and the name it is saved under.
- File I/O. Opening and reading files, `getFilesFromDirectory` and `prepareLogDirectory` are not part of this model. The listing is an input sequence, and reading a file is a parameter (`Collector.Reader`), with `Collector.ReadRecord` over a map from path to lines as the concrete reader. The redundant `open` in `fetchExpressions` (plot.py:37) is not modelled.
- Csv dialect details. Quoting and escaping are not modelled: a line is split at every space, and an empty line gives an empty row, as the reader does for unquoted text. Files are given as their lines, without line terminators.
- Overlay.Linspace: float behaviour is not modelled. Values are computed in exact arithmetic, so a float rounding that truncates one unit lower is not reproduced. Recent numpy versions reject the non-integer count `len*0.5` at plot.py:47; the model takes the truncated count.
- Overlay.SampleCount: only the default `plots = 0.5` is modelled.
- Integers.ParseInt: only ASCII digits are accepted. Python's `int()` also takes other Unicode decimal digits.
- Integers.ParseInt: the `int()` followed is that of Python 3.6 to 3.10 before the 3.10.7 release. It accepts single underscores between digits and digit strings of any length. The 4300-digit limit of Python 3.11 and later, and of the 3.7.14, 3.8.14, 3.9.14 and 3.10.7 releases, is not modelled. On those versions `int()` of a longer stem raises `ValueError` at plot.py:40, where `LoadIteration` returns a key.
- Integers.ParseIntToString: on Python versions with the 4300-digit limit, `int(str(k)) == k` holds only for integers of at most 4300 digits, since `str()` and `int()` raise beyond it.
- Records.ParseError: the line numbers are an addition of the model. Python raises a bare `StopIteration` or `IndexError`.
- `plotSearchStep` reads the fixed path `logs/search.csv`, which is left to the caller; only its parsing is modelled.
- `print` output, `main` and the `sys.argv` handling.

=== FILE: collector.dfy ===
/**
 * `fetchObjective` and `fetchExpressions`: scanning a directory listing and
 * reading the log files it names. The listing is a sequence of paths in
 * listing order. Reading one file (`parseExpressionFile`) is a parameter of
 * the scans, so that opening files stays outside the model; `ReadRecord`
 * over a map from path to lines is the reader the script uses.
 */
module Collector {
  import opened Wrappers
  import opened Text
  import opened Integers
  import opened Records

  /** Why one file could not be read. */
  datatype ReadError =
    | FileNotFound(path: string)                 // `open` fails
    | Malformed(path: string, cause: ParseError)

  /** The exceptions that end a scan. */
  datatype Error =
    | ReadFailed(cause: ReadError)
    | ObjectiveNotFound                          // the ValueError of `fetchObjective`
    | InvalidKey(path: string, stem: string)     // `int()` rejects the file's stem

  /** `parseExpressionFile` as a function of the path. */
  type Reader = string -> Result<Record, ReadError>

  type FileSystem = map<string, seq<string>>

  /** `parseExpressionFile(path)` over a file system mapping each readable path to its lines. */
  function ReadRecord(fs: FileSystem, path: string): (r: Result<Record, ReadError>)
    ensures r.Success? <==> path in fs && ParseExpressionFile(fs[path]).Success?
    ensures r.Success? ==> r.value == ParseExpressionFile(fs[path]).value
    ensures path !in fs ==> r == Failure(FileNotFound(path))
    ensures path in fs && ParseExpressionFile(fs[path]).Failure? ==>
      r == Failure(Malformed(path, ParseExpressionFile(fs[path]).error))
  {
    if path !in fs then Failure(FileNotFound(path))
    else
      match ParseExpressionFile(fs[path])
      case Success(rec) => Success(rec)
      case Failure(e) => Failure(Malformed(path, e))
  }

  /** A file holding a written record reads back as that record. */
  lemma ReadRendered(fs: FileSystem, path: string, rec: Record)
    requires Writable(rec) && path in fs && fs[path] == Render(rec)
    ensures ReadRecord(fs, path) == Success(rec)
  {
    ParseRendered(rec);
  }

  // ---------------------------------------------------------------------
  // fetchObjective

  const ObjectiveMarker: string := "objective"

  /** The whole path, directories included, contains the marker. */
  predicate IsObjectivePath(path: string)
  {
    Contains(path, ObjectiveMarker)
  }

  /** `files[j]` is the last path of the listing that `isMatch` accepts. */
  predicate IsLastMatch(isMatch: string -> bool, files: seq<string>, j: int)
  {
    && 0 <= j < |files|
    && isMatch(files[j])
    && forall k :: j < k < |files| ==> !isMatch(files[k])
  }

  /** `files[j]` is the last path of the listing that names an objective. */
  predicate IsLastObjective(files: seq<string>, j: int)
  {
    IsLastMatch(IsObjectivePath, files, j)
  }

  /**
   * The loop of `fetchObjective` for a given test `isMatch` on paths: every
   * matching path is read in listing order, each one replacing the previous;
   * the first read that fails aborts the scan.
   */
  method ScanLastMatch(read: Reader, isMatch: string -> bool, files: seq<string>) returns (r: Result<Record, Error>)
    ensures r == Failure(ObjectiveNotFound) <==> forall j :: 0 <= j < |files| ==> !isMatch(files[j])
    ensures r.Success? <==>
      && (exists j :: 0 <= j < |files| && isMatch(files[j]))
      && forall j :: 0 <= j < |files| && isMatch(files[j]) ==> read(files[j]).Success?
    ensures r.Success? ==> forall j :: IsLastMatch(isMatch, files, j) ==> r.value == read(files[j]).value
    ensures r.Failure? && r.error.ReadFailed? ==>
      exists j :: 0 <= j < |files| && isMatch(files[j]) && read(files[j]) == Failure(r.error.cause)
        && forall k :: 0 <= k < j && isMatch(files[k]) ==> read(files[k]).Success?
    ensures !(r.Failure? && r.error.InvalidKey?)
  {
    var found: Option<Record> := None;
    ghost var last := -1;
    var i := 0;
    while i < |files|
      invariant 0 <= i <= |files|
      invariant forall j :: 0 <= j < i && isMatch(files[j]) ==> read(files[j]).Success?
      invariant found.None? <==> last == -1
      invariant last == -1 ==> forall j :: 0 <= j < i ==> !isMatch(files[j])
      invariant last != -1 ==>
        && 0 <= last < i && isMatch(files[last]) && read(files[last]) == Success(found.value)
        && forall k :: last < k < i ==> !isMatch(files[k])
    {
      if isMatch(files[i]) {
        var rec := read(files[i]);
        if rec.Failure? {
          r := Failure(ReadFailed(rec.error));
          assert 0 <= i < |files| && isMatch(files[i]) && read(files[i]) == Failure(r.error.cause);
          return;
        }
        found := Some(rec.value);
        last := i;
      }
      i := i + 1;
    }
    if found.None? {
      return Failure(ObjectiveNotFound);
    }
    r := Success(found.value);
    assert 0 <= last < |files| && isMatch(files[last]);
    assert IsLastMatch(isMatch, files, last);
  }

  /** `fetchObjective`: the scan for paths containing `objective`. */
  method FetchObjective(read: Reader, files: seq<string>) returns (r: Result<Record, Error>)
    ensures r == Failure(ObjectiveNotFound) <==> forall j :: 0 <= j < |files| ==> !IsObjectivePath(files[j])
    ensures r.Success? <==>
      && (exists j :: 0 <= j < |files| && IsObjectivePath(files[j]))
      && forall j :: 0 <= j < |files| && IsObjectivePath(files[j]) ==> read(files[j]).Success?
    ensures r.Success? ==> forall j :: IsLastObjective(files, j) ==> r.value == read(files[j]).value
    ensures r.Failure? && r.error.ReadFailed? ==>
      exists j :: 0 <= j < |files| && IsObjectivePath(files[j]) && read(files[j]) == Failure(r.error.cause)
        && forall k :: 0 <= k < j && IsObjectivePath(files[k]) ==> read(files[k]).Success?
    ensures !(r.Failure? && r.error.InvalidKey?)
  {
    r := ScanLastMatch(read, IsObjectivePath, files);
  }

  // ---------------------------------------------------------------------
  // fetchExpressions

  /**
   * The part of a path naming the iteration: from just after the last slash
   * up to the last `.csv`, with Python's slicing rules when either is absent.
   */
  function Stem(path: string): (r: string)
    ensures |r| <= |path|
    ensures r <= path[FindLast(path, "/") + 1..]
    ensures forall i :: 0 <= i < |r| ==> r[i] != '/'
  {
    var slash := FindLast(path, "/");
    var lo := SliceBound(slash + 1, |path|);
    assert lo == slash + 1;
    var r := Slice(path, slash + 1, FindLast(path, ".csv"));
    forall i | 0 <= i < |r|
      ensures r[i] != '/'
    {
      var k := slash + 1 + i;
      assert r[i] == path[k] && k < |path|;
      assert !OccursAt(path, "/", k);
      assert path[k..k + 1] == [path[k]];
    }
    r
  }

  /** The iteration number `int()` reads from a path's stem; `None` where it raises ValueError. */
  function IterationKey(path: string): (r: Option<int>)
    ensures r.Some? ==> exists i :: 0 <= i < |Stem(path)| && IsDigit(Stem(path)[i])
    ensures r.Some? && r.value < 0 ==> exists i :: 0 <= i < |Stem(path)| && Stem(path)[i] == '-'
    ensures r.Some? <==> IsIntLiteral(Strip(Stem(path)))
  {
    var stem := Stem(path);
    var left := StripLeft(stem);
    var t := StripRight(left);
    var first := |stem| - |left|;
    assert t == Strip(stem);
    var key := ParseInt(stem);
    if key.Some? then
      assert stem[first] == t[0];
      assert stem[first + |t| - 1] == t[|t| - 1];
      key
    else key
  }

  /**
   * The work done for one listed file, in Python's order: the file is read
   * (the right-hand side of the assignment is evaluated first), then the
   * key is taken from its name.
   */
  function LoadIteration(read: Reader, keyOf: string -> Option<int>, path: string): (r: Result<(int, Record), Error>)
    ensures r.Success? <==> read(path).Success? && keyOf(path).Some?
    ensures r.Success? ==> r.value == (keyOf(path).value, read(path).value)
    ensures read(path).Failure? ==> r == Failure(ReadFailed(read(path).error))
    ensures read(path).Success? && keyOf(path).None? ==> r == Failure(InvalidKey(path, Stem(path)))
  {
    match read(path)
    case Failure(e) => Failure(ReadFailed(e))
    case Success(rec) =>
      match keyOf(path)
      case None => Failure(InvalidKey(path, Stem(path)))
      case Some(key) => Success((key, rec))
  }

  /** No later file of the listing yields the same key as `files[j]`. */
  predicate IsLastWithKey(read: Reader, keyOf: string -> Option<int>, files: seq<string>, j: int)
    requires forall i :: 0 <= i < |files| ==> LoadIteration(read, keyOf, files[i]).Success?
  {
    && 0 <= j < |files|
    && forall k :: j < k < |files| ==>
         LoadIteration(read, keyOf, files[k]).value.0 != LoadIteration(read, keyOf, files[j]).value.0
  }

  /**
   * The loop of `fetchExpressions` for a given way `keyOf` of naming
   * iterations: one entry per distinct key; a later file with the same key
   * replaces the earlier one; the first file that cannot be read or keyed
   * aborts the scan.
   */
  method CollectIterations(read: Reader, keyOf: string -> Option<int>, files: seq<string>)
    returns (r: Result<map<int, Record>, Error>)
    ensures r.Success? <==> forall j :: 0 <= j < |files| ==> LoadIteration(read, keyOf, files[j]).Success?
    ensures r.Success? ==> forall key :: key in r.value <==>
      exists j :: 0 <= j < |files| && LoadIteration(read, keyOf, files[j]).value.0 == key
    ensures r.Success? ==> forall j :: IsLastWithKey(read, keyOf, files, j) ==>
      var (key, rec) := LoadIteration(read, keyOf, files[j]).value; key in r.value && r.value[key] == rec
    ensures r.Failure? ==>
      exists j :: 0 <= j < |files| && LoadIteration(read, keyOf, files[j]) == Failure(r.error)
        && forall k :: 0 <= k < j ==> LoadIteration(read, keyOf, files[k]).Success?
  {
    var expressions: map<int, Record> := map[];
    var i := 0;
    while i < |files|
      invariant 0 <= i <= |files|
      invariant forall j :: 0 <= j < i ==> LoadIteration(read, keyOf, files[j]).Success?
      invariant forall key :: key in expressions <==>
        exists j :: 0 <= j < i && LoadIteration(read, keyOf, files[j]).value.0 == key
      invariant forall j :: 0 <= j < i ==>
        (forall k :: j < k < i ==>
           LoadIteration(read, keyOf, files[k]).value.0 != LoadIteration(read, keyOf, files[j]).value.0) ==>
        expressions[LoadIteration(read, keyOf, files[j]).value.0] == LoadIteration(read, keyOf, files[j]).value.1
    {
      var loaded := LoadIteration(read, keyOf, files[i]);
      if loaded.Failure? {
        return Failure(loaded.error);
      }
      var (key, rec) := loaded.value;
      expressions := expressions[key := rec];
      i := i + 1;
    }
    return Success(expressions);
  }

  /** `fetchExpressions`: iterations are keyed by `int()` of their file's stem. */
  method FetchExpressions(read: Reader, files: seq<string>) returns (r: Result<map<int, Record>, Error>)
    ensures r.Success? <==> forall j :: 0 <= j < |files| ==> LoadIteration(read, IterationKey, files[j]).Success?
    ensures r.Success? ==> forall key :: key in r.value <==>
      exists j :: 0 <= j < |files| && LoadIteration(read, IterationKey, files[j]).value.0 == key
    ensures r.Success? ==> forall j :: IsLastWithKey(read, IterationKey, files, j) ==>
      var (key, rec) := LoadIteration(read, IterationKey, files[j]).value; key in r.value && r.value[key] == rec
    ensures r.Failure? ==>
      exists j :: 0 <= j < |files| && LoadIteration(read, IterationKey, files[j]) == Failure(r.error)
        && forall k :: 0 <= k < j ==> LoadIteration(read, IterationKey, files[k]).Success?
  {
    r := CollectIterations(read, IterationKey, files);
  }

  // ---------------------------------------------------------------------
  // Iteration numbers from file names

  /** The stem of `dir/name.csv` is `name` when `name` has no slash, whatever `dir` is. */
  lemma StemOfLogPath(dir: string, name: string)
    requires forall i :: 0 <= i < |name| ==> name[i] != '/'
    ensures Stem(dir + "/" + name + ".csv") == name
  {
    var p := dir + "/" + name + ".csv";
    var slash := |dir|;
    var dot := |p| - 4;
    assert p[slash..slash + 1] == "/";
    forall k | slash < k <= |p| - 1
      ensures !OccursAt(p, "/", k)
    {
      if k < slash + 1 + |name| {
        assert p[k] == name[k - slash - 1];
      } else {
        assert p[k] == ".csv"[k - slash - 1 - |name|];
      }
      assert p[k..k + 1][0] == p[k];
    }
    FindLastIs(p, "/", slash);
    assert p[dot..dot + 4] == ".csv";
    FindLastIs(p, ".csv", dot);
    assert p[slash + 1..dot] == name;
  }

  /** A log written as `dir/<k>.csv` is filed under iteration `k`. */
  lemma IterationKeyOfLogPath(dir: string, k: int)
    ensures IterationKey(dir + "/" + IntToString(k) + ".csv") == Some(k)
  {
    NoSlashInNumber(k);
    StemOfLogPath(dir, IntToString(k));
    ParseIntToString(k);
  }

  /** A name without the `.csv` extension loses its last character: `rfind` returns -1, read as "up to the end minus one". */
  lemma StemWithoutExtension(dir: string, name: string)
    requires |name| >= 1
    requires forall i :: 0 <= i < |name| ==> name[i] != '/'
    requires !Contains(dir + "/" + name, ".csv")
    ensures Stem(dir + "/" + name) == name[..|name| - 1]
  {
    var p := dir + "/" + name;
    var slash := |dir|;
    assert p[slash..slash + 1] == "/";
    forall k | slash < k <= |p| - 1
      ensures !OccursAt(p, "/", k)
    {
      assert p[k] == name[k - slash - 1];
      assert p[k..k + 1][0] == p[k];
    }
    FindLastIs(p, "/", slash);
    assert p[slash + 1..|p| - 1] == name[..|name| - 1];
  }
}

=== FILE: grid.dfy ===
/**
 * `plotTwoByTwo`: every iteration, in ascending order, drawn against the
 * objective in its own subplot of a 3 x 2 grid (subplot codes 321 to 326),
 * a page being saved after each sixth subplot and once more at the end.
 */
module Grid {
  import opened Wrappers
  import opened Text
  import opened Integers
  import opened Records
  import opened Ordering

  const PanelsPerPage: nat := 6
  /** `plt.subplot(321)`: 3 rows, 2 columns, first cell. */
  const FirstSlot: int := 321
  /** A page is saved once the subplot code reaches 327. */
  const SlotLimit: int := 327

  /** One subplot: the iteration's curve and the objective's, with the two legend entries. */
  datatype Panel = Panel(
    slot: int,
    iteration: int,
    legend: (string, string),
    x: seq<string>,
    fx: seq<string>,
    objectiveX: seq<string>,
    objectiveFx: seq<string>)

  /** One saved figure: the file name and the subplots drawn since the previous save. */
  datatype Page = Page(name: string, panels: seq<Panel>)

  /** The objective's legend entry in every subplot: the word `Objective`, then the objective's expression. */
  function ObjectiveLegend(objective: Record): string
  {
    "Objective " + objective.expression
  }

  /**
   * An iteration's legend entry in its subplot: the iteration number (not a
   * position), a colon, the expression and its MSE in parentheses.
   */
  function PanelLegend(iteration: int, rec: Record): string
  {
    IntToString(iteration) + ": " + rec.expression + " (MSE: " + rec.mse + ")"
  }

  const PagePrefix: string := "Two_by_two_"

  /** The name page `index` is saved under: the fixed prefix, then the page number. */
  function PageName(index: int): string
  {
    PagePrefix + IntToString(index)
  }

  /** The objective's legend entry is the word `Objective` followed by fields that spell out the expression. */
  lemma ObjectiveLegendFields(objective: Record)
    ensures var fields := Fields(ObjectiveLegend(objective));
      |fields| >= 1 && fields[0] == "Objective" && Join(" ", fields[1..]) == objective.expression
  {
    assert ObjectiveLegend(objective) == "Objective" + " " + objective.expression;
    FirstField("Objective", objective.expression);
    JoinSplitAt(objective.expression, ' ', IsSpace);
    assert [' '] == " ";
  }

  /** The first field of an iteration's legend entry is its iteration number followed by a colon. */
  lemma PanelLegendNumber(iteration: int, rec: Record)
    ensures var fields := Fields(PanelLegend(iteration, rec));
      |fields| >= 1 && |fields[0]| >= 1 && fields[0][|fields[0]| - 1] == ':'
      && ParseInt(fields[0][..|fields[0]| - 1]) == Some(iteration)
  {
    var number := IntToString(iteration);
    var word := number + ":";
    var rest := rec.expression + " (MSE: " + rec.mse + ")";
    forall i | 0 <= i < |word|
      ensures !IsSpace(word[i])
    {
      if i < |number| {
        assert word[i] == number[i];
      }
    }
    assert PanelLegend(iteration, rec) == word + " " + rest;
    FirstField(word, rest);
    assert Fields(PanelLegend(iteration, rec))[0] == word;
    assert word[..|word| - 1] == number;
    ParseIntToString(iteration);
  }

  /** A page's name is the prefix followed by its number, which reads back; so no two pages share a name. */
  lemma PageNameNumber(index: int)
    ensures var name := PageName(index);
      |name| > |PagePrefix| && name[..|PagePrefix|] == PagePrefix
      && ParseInt(name[|PagePrefix|..]) == Some(index)
  {
    assert PageName(index)[|PagePrefix|..] == IntToString(index);
    ParseIntToString(index);
  }

  /** The subplot the `k`-th iteration in ascending order belongs in: on page `k / 6`, cell `k % 6`. */
  function ExpectedPanel(data: map<int, Record>, objective: Record, k: int): (p: Panel)
    requires 0 <= k < |data|
    ensures p.iteration in data
    ensures FirstSlot <= p.slot < SlotLimit
  {
    var keys := SortedKeys(data.Keys);
    var it := keys[k];
    var rec := data[it];
    Panel(FirstSlot + k % PanelsPerPage, it, (ObjectiveLegend(objective), PanelLegend(it, rec)),
          rec.x, rec.fx, objective.x, objective.fx)
  }

  /** The subplots of the first `k` iterations in ascending order. */
  function ExpectedPanels(data: map<int, Record>, objective: Record, k: int): (ps: seq<Panel>)
    requires 0 <= k <= |data|
    ensures |ps| == k
    ensures forall t :: 0 <= t < k ==> ps[t] == ExpectedPanel(data, objective, t)
  {
    seq(k, t requires 0 <= t < k => ExpectedPanel(data, objective, t))
  }

  /** The subplot the loop draws for the `k`-th key is the expected one. */
  lemma DrawnPanel(data: map<int, Record>, objective: Record, k: int, q: nat, r: nat, slot: int)
    requires 0 <= k < |data| && k == PanelsPerPage * q + r && r < PanelsPerPage
    requires slot == FirstSlot + r
    ensures var it := SortedKeys(data.Keys)[k];
      ExpectedPanel(data, objective, k)
        == Panel(slot, it, (ObjectiveLegend(objective), PanelLegend(it, data[it])),
                 data[it].x, data[it].fx, objective.x, objective.fx)
  {
    CellOf(k, q, r);
  }

  lemma ExpectedPanelsStep(data: map<int, Record>, objective: Record, k: int)
    requires 0 <= k < |data|
    ensures ExpectedPanels(data, objective, k + 1) == ExpectedPanels(data, objective, k) + [ExpectedPanel(data, objective, k)]
  {
    var a := ExpectedPanels(data, objective, k + 1);
    var b := ExpectedPanels(data, objective, k) + [ExpectedPanel(data, objective, k)];
    assert |a| == |b|;
    forall t | 0 <= t < k + 1
      ensures a[t] == b[t]
    {
    }
  }

  /** Subplot `r` after `q` full pages is overall subplot `6 * q + r`, and conversely. */
  lemma {:induction false} CellOf(k: int, q: nat, r: nat)
    requires k == PanelsPerPage * q + r && r < PanelsPerPage
    ensures k % PanelsPerPage == r && k / PanelsPerPage == q
    decreases q
  {
    if q > 0 {
      CellOf(k - PanelsPerPage, q - 1, r);
    }
  }

  /** All subplots of the pages, in drawing order. */
  function AllPanels(pages: seq<Page>): seq<Panel>
  {
    if |pages| == 0 then [] else AllPanels(pages[..|pages| - 1]) + pages[|pages| - 1].panels
  }

  /** Every page is full and numbered by its place. */
  predicate FullPages(pages: seq<Page>)
  {
    forall j :: 0 <= j < |pages| ==> pages[j].name == PageName(j + 1) && |pages[j].panels| == PanelsPerPage
  }

  /** Drawing one more subplot on the current page extends the drawn sequence by it. */
  lemma DrawnAfter(saved: seq<Panel>, current: seq<Panel>, done: seq<Panel>, panel: Panel)
    requires saved + current == done
    ensures saved + (current + [panel]) == done + [panel]
  {
  }

  /** Closing with one more page, of any size, keeps the numbering. */
  lemma LastPageAppend(pages: seq<Page>, page: Page)
    requires FullPages(pages)
    requires page.name == PageName(|pages| + 1)
    ensures forall j :: 0 <= j < |pages + [page]| ==> (pages + [page])[j].name == PageName(j + 1)
    ensures forall j :: 0 <= j < |pages + [page]| - 1 ==> |(pages + [page])[j].panels| == PanelsPerPage
  {
  }

  lemma FullPagesAppend(pages: seq<Page>, page: Page)
    requires FullPages(pages)
    requires page.name == PageName(|pages| + 1) && |page.panels| == PanelsPerPage
    ensures FullPages(pages + [page])
  {
  }

  /** Saving one more page appends its subplots. */
  lemma AllPanelsAppend(pages: seq<Page>, page: Page)
    ensures AllPanels(pages + [page]) == AllPanels(pages) + page.panels
  {
    assert (pages + [page])[..|pages|] == pages;
  }

  /** Pages of six subplots each hold six times as many subplots between them. */
  lemma {:induction false} AllPanelsLength(pages: seq<Page>)
    requires forall q :: 0 <= q < |pages| ==> |pages[q].panels| == PanelsPerPage
    ensures |AllPanels(pages)| == PanelsPerPage * |pages|
    decreases |pages|
  {
    if |pages| > 0 {
      AllPanelsLength(pages[..|pages| - 1]);
    }
  }

  /** After `j` full pages, subplot `i` of page `j` is subplot `6 * j + i` overall. */
  lemma {:induction false} AllPanelsIndex(pages: seq<Page>, j: int, i: int)
    requires 0 <= j < |pages|
    requires forall q :: 0 <= q < j ==> |pages[q].panels| == PanelsPerPage
    requires 0 <= i < |pages[j].panels|
    ensures PanelsPerPage * j + i < |AllPanels(pages)|
    ensures AllPanels(pages)[PanelsPerPage * j + i] == pages[j].panels[i]
    decreases |pages|
  {
    var front := pages[..|pages| - 1];
    if j == |pages| - 1 {
      AllPanelsLength(front);
    } else {
      AllPanelsIndex(front, j, i);
    }
  }

  /**
   * The state of the paginator after drawing the first `k` iterations:
   * `pages` saved, all full and numbered from 1, and `current` holding the
   * subplots of the page still open, fewer than six.
   */
  ghost predicate Drawn(data: map<int, Record>, objective: Record, pages: seq<Page>, current: seq<Panel>, k: int)
  {
    && 0 <= k <= |data|
    && k == PanelsPerPage * |pages| + |current|
    && |current| < PanelsPerPage
    && FullPages(pages)
    && AllPanels(pages) + current == ExpectedPanels(data, objective, k)
  }

  /** Drawing the next iteration in cell `|current|`, then saving the page if it is full, keeps `Drawn`. */
  lemma DrawStep(data: map<int, Record>, objective: Record, pages: seq<Page>, current: seq<Panel>, k: int, panel: Panel)
    requires Drawn(data, objective, pages, current, k) && k < |data|
    requires var it := SortedKeys(data.Keys)[k];
      panel == Panel(FirstSlot + |current|, it, (ObjectiveLegend(objective), PanelLegend(it, data[it])),
                     data[it].x, data[it].fx, objective.x, objective.fx)
    ensures |current| + 1 < PanelsPerPage ==> Drawn(data, objective, pages, current + [panel], k + 1)
    ensures |current| + 1 == PanelsPerPage ==>
      Drawn(data, objective, pages + [Page(PageName(|pages| + 1), current + [panel])], [], k + 1)
  {
    DrawnPanel(data, objective, k, |pages|, |current|, panel.slot);
    ExpectedPanelsStep(data, objective, k);
    DrawnAfter(AllPanels(pages), current, ExpectedPanels(data, objective, k), panel);
    if |current| + 1 == PanelsPerPage {
      var page := Page(PageName(|pages| + 1), current + [panel]);
      AllPanelsAppend(pages, page);
      FullPagesAppend(pages, page);
    }
  }

  /** Saving the open page once every iteration is drawn gives `|data| / 6 + 1` pages holding all subplots. */
  lemma DrawFinish(data: map<int, Record>, objective: Record, pages: seq<Page>, current: seq<Panel>)
    requires Drawn(data, objective, pages, current, |data|)
    ensures var all := pages + [Page(PageName(|pages| + 1), current)];
      && |all| == |data| / PanelsPerPage + 1
      && (forall j :: 0 <= j < |all| ==> all[j].name == PageName(j + 1))
      && (forall j :: 0 <= j < |all| - 1 ==> |all[j].panels| == PanelsPerPage)
      && |current| == |data| % PanelsPerPage
      && AllPanels(all) == ExpectedPanels(data, objective, |data|)
  {
    var last := Page(PageName(|pages| + 1), current);
    CellOf(|data|, |pages|, |current|);
    AllPanelsAppend(pages, last);
    LastPageAppend(pages, last);
  }

  /**
   * `plotTwoByTwo`: the pages saved, in order. The subplot counter runs from
   * 321; once it reaches 327 the page is saved and the counter starts again;
   * after the loop the current page is saved whatever it holds.
   */
  method PlotTwoByTwo(data: map<int, Record>, objective: Record) returns (pages: seq<Page>)
    ensures |pages| == |data| / PanelsPerPage + 1
    ensures forall j :: 0 <= j < |pages| ==> pages[j].name == PageName(j + 1)
    ensures forall j :: 0 <= j < |pages| - 1 ==> |pages[j].panels| == PanelsPerPage
    ensures |pages[|pages| - 1].panels| == |data| % PanelsPerPage
    ensures pages[|pages| - 1].panels == [] <==> |data| % PanelsPerPage == 0
    ensures AllPanels(pages) == ExpectedPanels(data, objective, |data|)
  {
    var keys := SortedKeys(data.Keys);
    var objectiveLabel := ObjectiveLegend(objective);
    var figureIndex := FirstSlot;
    var fileNameIndex := 1;
    var current: seq<Panel> := [];
    pages := [];
    var k := 0;
    while k < |keys|
      invariant |keys| == |data| && 0 <= k <= |keys|
      invariant Drawn(data, objective, pages, current, k)
      invariant figureIndex == FirstSlot + |current|
      invariant fileNameIndex == |pages| + 1
    {
      var iteration := keys[k];
      var rec := data[iteration];
      var panel := Panel(figureIndex, iteration, (objectiveLabel, PanelLegend(iteration, rec)),
                         rec.x, rec.fx, objective.x, objective.fx);
      DrawStep(data, objective, pages, current, k, panel);
      current := current + [panel];
      figureIndex := figureIndex + 1;
      if figureIndex >= SlotLimit {
        pages := pages + [Page(PageName(fileNameIndex), current)];
        figureIndex := FirstSlot;
        fileNameIndex := fileNameIndex + 1;
        current := [];
      }
      k := k + 1;
    }
    DrawFinish(data, objective, pages, current);
    pages := pages + [Page(PageName(fileNameIndex), current)];
  }

  /**
   * The `k`-th iteration in ascending order is cell `k % 6` of page
   * `k / 6` (saved as `Two_by_two_<k / 6 + 1>`), in subplot `321 + k % 6`.
   */
  lemma PanelPlacement(data: map<int, Record>, objective: Record, pages: seq<Page>, k: int)
    requires |pages| == |data| / PanelsPerPage + 1
    requires forall j :: 0 <= j < |pages| - 1 ==> |pages[j].panels| == PanelsPerPage
    requires |pages[|pages| - 1].panels| == |data| % PanelsPerPage
    requires AllPanels(pages) == ExpectedPanels(data, objective, |data|)
    requires 0 <= k < |data|
    ensures k / PanelsPerPage < |pages| && k % PanelsPerPage < |pages[k / PanelsPerPage].panels|
    ensures pages[k / PanelsPerPage].panels[k % PanelsPerPage] == ExpectedPanel(data, objective, k)
    ensures pages[k / PanelsPerPage].panels[k % PanelsPerPage].slot == FirstSlot + k % PanelsPerPage
  {
    var j := k / PanelsPerPage;
    var i := k % PanelsPerPage;
    assert k == PanelsPerPage * j + i;
    AllPanelsIndex(pages, j, i);
  }

  /** The subplots show the iterations in strictly ascending order, so none twice. */
  lemma PanelsAscending(data: map<int, Record>, objective: Record)
    ensures var panels := ExpectedPanels(data, objective, |data|);
      forall i, j :: 0 <= i < j < |panels| ==> panels[i].iteration < panels[j].iteration
  {
    var keys := SortedKeys(data.Keys);
    var panels := ExpectedPanels(data, objective, |data|);
    SortedKeysIncreasing(data.Keys);
    forall i, j | 0 <= i < j < |panels|
      ensures panels[i].iteration < panels[j].iteration
    {
      assert panels[i].iteration == keys[i] && panels[j].iteration == keys[j];
    }
  }

  /** Every iteration has a subplot, and every subplot shows an iteration. */
  lemma PanelsCoverData(data: map<int, Record>, objective: Record)
    ensures var panels := ExpectedPanels(data, objective, |data|);
      forall it :: it in data <==> exists k :: 0 <= k < |panels| && panels[k].iteration == it
  {
    var keys := SortedKeys(data.Keys);
    var panels := ExpectedPanels(data, objective, |data|);
    forall it | it in data
      ensures exists k :: 0 <= k < |panels| && panels[k].iteration == it
    {
      assert it in keys;
      var k :| 0 <= k < |keys| && keys[k] == it;
      assert panels[k].iteration == it;
    }
  }
}

=== FILE: integers.dfy ===
/**
 * Python's conversions between integers and their decimal text: `str(i)`,
 * used to print iteration numbers and page numbers, and `int(s)`, used to
 * read an iteration number out of a log file's name.
 */
module Integers {
  import opened Wrappers
  import opened Text

  predicate IsDigit(c: char)
  {
    '0' <= c <= '9'
  }

  function DigitValue(c: char): nat
    requires IsDigit(c)
  {
    (c as int) - ('0' as int)
  }

  function DigitChar(d: nat): (c: char)
    requires d < 10
    ensures IsDigit(c) && DigitValue(c) == d
  {
    (('0' as int) + d) as char
  }

  /** The decimal digits of `n`, most significant first, with no leading zero. */
  function NatToString(n: nat): (s: string)
    ensures |s| >= 1
    ensures forall i :: 0 <= i < |s| ==> IsDigit(s[i])
    ensures |s| > 1 ==> s[0] != '0'
    decreases n
  {
    if n < 10 then [DigitChar(n)] else NatToString(n / 10) + [DigitChar(n % 10)]
  }

  /** `str(i)`: a minus sign for negative numbers, then the digits of the magnitude. */
  function IntToString(i: int): (s: string)
    ensures |s| >= 1
    ensures s[0] == '-' <==> i < 0
    ensures forall k :: (if i < 0 then 1 else 0) <= k < |s| ==> IsDigit(s[k])
    ensures var d := if i < 0 then 1 else 0; |s| > d && (|s| > d + 1 ==> s[d] != '0')
  {
    if i < 0 then
      var s := "-" + NatToString(-i);
      assert s[1..] == NatToString(-i);
      s
    else NatToString(i)
  }

  /**
   * The digit part accepted by `int()` in base 10: ASCII digits, where an
   * underscore may separate two digits.
   */
  predicate IsDecimal(t: string)
  {
    && |t| > 0
    && IsDigit(t[0])
    && IsDigit(t[|t| - 1])
    && (forall i :: 0 <= i < |t| ==> IsDigit(t[i]) || t[i] == '_')
    && (forall i :: 0 <= i < |t| - 1 ==> t[i] == '_' ==> t[i + 1] != '_')
  }

  /** The number a run of digits and underscores denotes; underscores are skipped. */
  function DecimalValue(t: string): nat
    requires forall i :: 0 <= i < |t| ==> IsDigit(t[i]) || t[i] == '_'
    decreases |t|
  {
    if |t| == 0 then 0
    else
      var v := DecimalValue(t[..|t| - 1]);
      if t[|t| - 1] == '_' then v else 10 * v + DigitValue(t[|t| - 1])
  }

  /**
   * The characters `int()` skips around a number: the ASCII whitespace
   * (tab, line feed, vertical tab, form feed, carriage return and space)
   * and every non-ASCII character `str.isspace` accepts. The ASCII
   * separators U+001C to U+001F count as whitespace for `str.isspace` but
   * are not skipped here, so `int()` rejects text that carries them.
   */
  predicate IsIntSpace(c: char)
  {
    IsWhitespace(c) && !('\U{001C}' <= c <= '\U{001F}')
  }

  /** `s` without the leading characters `int()` skips. */
  function StripLeft(s: string): (r: string)
    ensures |r| <= |s| && r == s[|s| - |r|..]
    ensures |r| == 0 || !IsIntSpace(r[0])
    ensures forall i :: 0 <= i < |s| - |r| ==> IsIntSpace(s[i])
  {
    if |s| > 0 && IsIntSpace(s[0]) then StripLeft(s[1..]) else s
  }

  /** `s` without the trailing characters `int()` skips. */
  function StripRight(s: string): (r: string)
    ensures |r| <= |s| && r == s[..|r|]
    ensures |r| == 0 || !IsIntSpace(r[|r| - 1])
    ensures forall i :: |r| <= i < |s| ==> IsIntSpace(s[i])
  {
    if |s| > 0 && IsIntSpace(s[|s| - 1]) then StripRight(s[..|s| - 1]) else s
  }

  /** `s` with the surrounding characters `int()` skips removed. */
  function Strip(s: string): string
  {
    StripRight(StripLeft(s))
  }

  /** The stripped text `int()` accepts in base 10: a decimal, with or without a sign in front. */
  predicate IsIntLiteral(t: string)
  {
    IsDecimal(t) || (|t| > 0 && (t[0] == '+' || t[0] == '-') && IsDecimal(t[1..]))
  }

  /**
   * `int(s)` in base 10: surrounding whitespace is ignored, an optional sign
   * precedes the digits; `None` where Python raises `ValueError`.
   */
  function ParseInt(s: string): (r: Option<int>)
    ensures r.Some? ==> var t := Strip(s); |t| > 0 && IsDigit(t[|t| - 1])
    ensures r.Some? ==> var t := Strip(s); IsDigit(t[0]) || t[0] == '+' || t[0] == '-'
    ensures r.Some? && r.value < 0 ==> Strip(s)[0] == '-'
    ensures IsDecimal(Strip(s)) ==> r == Some(DecimalValue(Strip(s)) as int)
    ensures r.Some? <==> IsIntLiteral(Strip(s))
    ensures var t := Strip(s); |t| > 0 && t[0] == '+' && IsDecimal(t[1..]) ==> r == Some(DecimalValue(t[1..]) as int)
  {
    var t := Strip(s);
    if |t| > 0 && (t[0] == '+' || t[0] == '-') then
      var body := t[1..];
      if IsDecimal(body) then
        var v: int := DecimalValue(body);
        Some(if t[0] == '-' then -v else v)
      else None
    else if IsDecimal(t) then Some(DecimalValue(t))
    else
      assert !IsIntLiteral(t);
      None
  }

  // ---------------------------------------------------------------------

  /** Reading back the digits of `n` gives `n`. */
  lemma {:induction false} DecimalValueOfNat(n: nat)
    ensures IsDecimal(NatToString(n))
    ensures DecimalValue(NatToString(n)) == n
    decreases n
  {
    var s := NatToString(n);
    if n >= 10 {
      DecimalValueOfNat(n / 10);
      var a := NatToString(n / 10);
      assert s == a + [DigitChar(n % 10)];
      assert s[..|s| - 1] == a;
    } else {
      assert s[..|s| - 1] == [];
    }
  }

  /** Text whose ends are not whitespace is left alone by `strip`. */
  lemma {:induction false} StripTrimmed(s: string)
    requires |s| > 0 && !IsIntSpace(s[0]) && !IsIntSpace(s[|s| - 1])
    ensures Strip(s) == s
  {
  }

  lemma DigitNotIntSpace(c: char)
    requires IsDigit(c)
    ensures !IsIntSpace(c)
  {
  }

  /** `int()` of an already stripped, unsigned decimal. */
  lemma {:induction false} ParseIntOfDecimal(t: string)
    requires Strip(t) == t && IsDecimal(t)
    ensures ParseInt(t) == Some(DecimalValue(t) as int)
  {
    assert t[0] != '+' && t[0] != '-';
  }

  /** `int()` of an already stripped, negative decimal. */
  lemma {:induction false} ParseIntOfNegative(t: string)
    requires Strip(t) == t && |t| > 0 && t[0] == '-' && IsDecimal(t[1..])
    ensures ParseInt(t) == Some(-(DecimalValue(t[1..]) as int))
  {
  }

  /** `int()` reads back the digits of a natural number. */
  lemma {:induction false} ParseIntOfNat(n: nat)
    ensures ParseInt(NatToString(n)) == Some(n)
  {
    var s := NatToString(n);
    DecimalValueOfNat(n);
    DigitNotIntSpace(s[0]);
    DigitNotIntSpace(s[|s| - 1]);
    StripTrimmed(s);
    ParseIntOfDecimal(s);
  }

  /** `int()` reads back a minus sign followed by the digits of a natural number. */
  lemma {:induction false} ParseIntOfMinusNat(n: nat)
    ensures ParseInt("-" + NatToString(n)) == Some(-(n as int))
  {
    var d := NatToString(n);
    var s := "-" + d;
    assert s[0] == '-' && s[1..] == d && s[|s| - 1] == d[|d| - 1];
    DecimalValueOfNat(n);
    DigitNotIntSpace(d[|d| - 1]);
    StripTrimmed(s);
    ParseIntOfNegative(s);
  }

  /** `int(str(i)) == i` for every integer. */
  lemma {:induction false} ParseIntToString(i: int)
    ensures ParseInt(IntToString(i)) == Some(i)
  {
    var s := IntToString(i);
    if i < 0 {
      var n: nat := -i;
      assert s == "-" + NatToString(n);
      ParseIntOfMinusNat(n);
    } else {
      var n: nat := i;
      assert s == NatToString(n);
      ParseIntOfNat(n);
    }
  }

  /**
   * `int()` rejects text that starts with one of the ASCII separators
   * U+001C to U+001F: unlike `str.split()`, it does not treat them as
   * whitespace.
   */
  lemma {:induction false} ParseIntRejectsLeadingSeparator(c: char, s: string)
    requires '\U{001C}' <= c <= '\U{001F}'
    ensures ParseInt([c] + s) == None
  {
    var x := [c] + s;
    assert StripLeft(x) == x;
    var t := StripRight(x);
    assert !IsIntSpace(x[0]);
    assert !IsDigit(t[0]);
  }

  /** Whitespace around the number does not change what `int()` reads. */
  lemma {:induction false} ParseIntIgnoresSurroundingSpace(s: string)
    ensures ParseInt(" " + s + " ") == ParseInt(s)
  {
    StripAroundSpace(s);
  }

  lemma {:induction false} StripAroundSpace(s: string)
    ensures Strip(" " + s + " ") == Strip(s)
  {
    var t := " " + s + " ";
    assert t[1..] == s + " ";
    assert StripLeft(t) == StripLeft(s + " ");
    StripLeftAppendSpace(s);
    var l := StripLeft(s);
    if |l| == 0 {
      assert StripLeft(s + " ") == "";
    } else {
      assert StripLeft(s + " ") == l + " ";
      assert (l + " ")[..|l|] == l;
    }
  }

  lemma {:induction false} StripLeftAppendSpace(s: string)
    ensures StripLeft(s) == "" ==> StripLeft(s + " ") == ""
    ensures StripLeft(s) != "" ==> StripLeft(s + " ") == StripLeft(s) + " "
    decreases |s|
  {
    var t := s + " ";
    if |s| == 0 {
      assert IsIntSpace(t[0]) && t[1..] == "";
    } else if IsIntSpace(s[0]) {
      assert t[1..] == s[1..] + " ";
      StripLeftAppendSpace(s[1..]);
      assert StripLeft(s) == StripLeft(s[1..]);
      assert StripLeft(t) == StripLeft(t[1..]);
    } else {
      assert t[0] == s[0];
      assert StripLeft(s) == s;
      assert StripLeft(t) == t;
    }
  }

  /** Python's `str` of a number never contains a slash. */
  lemma NoSlashInNumber(k: int)
    ensures forall i :: 0 <= i < |IntToString(k)| ==> IntToString(k)[i] != '/'
  {
    var digits := NatToString(if k < 0 then -k else k);
    assert forall i :: 0 <= i < |digits| ==> IsDigit(digits[i]);
    if k < 0 {
      assert forall i :: 1 <= i < |IntToString(k)| ==> IntToString(k)[i] == digits[i - 1];
    }
  }
}

=== FILE: ordering.dfy ===
/** `sorted(d.keys())` for a dictionary keyed by iteration number. */
module Ordering {

  predicate StrictlyIncreasing(s: seq<int>)
  {
    forall i, j :: 0 <= i < j < |s| ==> s[i] < s[j]
  }

  /** A set other than the empty set has an element. */
  lemma HasElement(s: set<int>)
    requires s != {}
    ensures exists x :: x in s
  {
    if forall x :: x !in s {
      assert false;
    }
  }

  /** Every non-empty finite set of integers has a least element: this is one. */
  ghost function MinimumWitness(s: set<int>): (m: int)
    requires s != {}
    ensures m in s && forall k :: k in s ==> m <= k
    decreases |s|
  {
    HasElement(s);
    var x :| x in s;
    var t := s - {x};
    if t == {} then
      assert forall k :: k in s ==> k == x || k in t;
      x
    else
      var m := MinimumWitness(t);
      assert forall k :: k in s ==> k == x || k in t;
      if x < m then x else m
  }

  /** The least element of a non-empty set. */
  function Least(s: set<int>): (m: int)
    requires s != {}
    ensures m in s && forall k :: k in s ==> m <= k
  {
    // the witness shows that the choice below is possible; the least element is unique
    var candidate := MinimumWitness(s);
    var m :| m in s && forall k :: k in s ==> m <= k; m
  }

  /** The elements of `s` in ascending order. */
  function SortedKeys(s: set<int>): (r: seq<int>)
    ensures |r| == |s|
    ensures forall i :: 0 <= i < |r| ==> r[i] in s
    ensures forall k :: k in s ==> k in r
    decreases |s|
  {
    if s == {} then []
    else
      var m := Least(s);
      [m] + SortedKeys(s - {m})
  }

  /** A value below every element of an ascending sequence extends it at the front. */
  lemma ConsIncreasing(m: int, rest: seq<int>)
    requires StrictlyIncreasing(rest)
    requires forall i :: 0 <= i < |rest| ==> m < rest[i]
    ensures StrictlyIncreasing([m] + rest)
  {
    var r := [m] + rest;
    forall i, j | 0 <= i < j < |r|
      ensures r[i] < r[j]
    {
      assert r[j] == rest[j - 1];
      if i > 0 {
        assert r[i] == rest[i - 1];
      }
    }
  }

  /** The keys come out in strictly ascending order. */
  lemma {:induction false} SortedKeysIncreasing(s: set<int>)
    ensures StrictlyIncreasing(SortedKeys(s))
    decreases |s|
  {
    if s != {} {
      var m := Least(s);
      var rest := SortedKeys(s - {m});
      SortedKeysIncreasing(s - {m});
      assert forall i :: 0 <= i < |rest| ==> m < rest[i] by {
        forall i | 0 <= i < |rest|
          ensures m < rest[i]
        {
          assert rest[i] in s - {m};
        }
      }
      ConsIncreasing(m, rest);
    }
  }

  /** Nothing in an ascending sequence exceeds its last element. */
  lemma LastIsLargest(r: seq<int>, k: int)
    requires StrictlyIncreasing(r) && k in r
    ensures k <= r[|r| - 1]
  {
    var j :| 0 <= j < |r| && r[j] == k;
    if j < |r| - 1 {
      assert r[j] < r[|r| - 1];
    }
  }
}

=== FILE: overlay.dfy ===
/**
 * `plotAll`: which iterations are drawn over the objective, with which
 * label and colour, and the name the figure is saved under. Drawing itself
 * is left to the charting library; a figure here is the ordered list of
 * curves handed to it.
 */
module Overlay {
  import opened Wrappers
  import opened Text
  import opened Integers
  import opened Records
  import opened Ordering

  // ---------------------------------------------------------------------
  // Integer division facts used by the sampler.

  lemma DivBounds(a: int, k: int)
    requires k > 0
    ensures (a / k) * k <= a < (a / k + 1) * k
  {
  }

  lemma MulCancel(x: int, y: int, k: int)
    requires k > 0 && x * k < y * k
    ensures x < y
  {
  }

  lemma MulMonotone(a: int, b: int, c: int)
    requires 0 <= c && a <= b
    ensures a * c <= b * c
  {
  }

  lemma DivMonotone(a: int, b: int, k: int)
    requires k > 0 && a <= b
    ensures a / k <= b / k
  {
    DivBounds(a, k);
    DivBounds(b, k);
    MulCancel(a / k, b / k + 1, k);
  }

  /** `n / k` is the only `q` with `q * k <= n < (q + 1) * k`. */
  lemma DivUnique(n: int, k: int, q: int)
    requires k > 0 && q * k <= n < (q + 1) * k
    ensures n / k == q
  {
    DivBounds(n, k);
    MulCancel(q, n / k + 1, k);
    MulCancel(n / k, q + 1, k);
  }

  lemma DivAddOne(a: int, k: int)
    requires k > 0
    ensures (a + k) / k == a / k + 1
  {
    DivBounds(a, k);
    assert (a / k + 1) * k == (a / k) * k + k;
    assert (a / k + 2) * k == (a / k + 1) * k + k;
    DivUnique(a + k, k, a / k + 1);
  }

  /** A point `i` of `m >= 2` lies between the two ends. */
  lemma SpacingBounds(lo: int, hi: int, m: int, i: int)
    requires lo <= hi && m >= 2 && 0 <= i < m
    ensures lo <= lo + (i * (hi - lo)) / (m - 1) <= hi
  {
    MulMonotone(0, i, hi - lo);
    MulMonotone(i, m - 1, hi - lo);
    DivMonotone(0, i * (hi - lo), m - 1);
    DivMonotone(i * (hi - lo), (m - 1) * (hi - lo), m - 1);
    DivUnique((m - 1) * (hi - lo), m - 1, hi - lo);
  }

  // ---------------------------------------------------------------------
  // np.linspace(lo, hi, m, dtype=int)

  /** Point `i` of `m >= 2` evenly spaced from `lo` to `hi`, truncated: `lo + i * (hi - lo) / (m - 1)`. */
  function Point(lo: int, hi: int, m: int, i: int): (v: int)
    requires lo <= hi && m >= 2 && 0 <= i < m
    ensures lo <= v <= hi
  {
    SpacingBounds(lo, hi, m, i);
    lo + (i * (hi - lo)) / (m - 1)
  }

  /**
   * `np.linspace(lo, hi, m, dtype=int)` in exact arithmetic: `m` values
   * evenly spaced from `lo` to `hi` inclusive, each truncated to an integer;
   * a single value is `lo`.
   */
  function Linspace(lo: int, hi: int, m: nat): (r: seq<int>)
    requires lo <= hi
    ensures |r| == m
    ensures m >= 1 ==> r[0] == lo
    ensures m >= 2 ==> r[m - 1] == hi
    ensures forall i :: 0 <= i < m ==> lo <= r[i] <= hi
  {
    if m == 0 then []
    else if m == 1 then [lo]
    else
      assert Point(lo, hi, m, m - 1) == hi by {
        DivUnique((m - 1) * (hi - lo), m - 1, hi - lo);
      }
      seq(m, i requires 0 <= i < m => Point(lo, hi, m, i))
  }

  /** Each value is the truncation of the exact point `lo + i * (hi - lo) / (m - 1)`, not its rounding. */
  lemma LinspaceTruncates(lo: int, hi: int, m: nat, i: int)
    requires lo <= hi && m >= 2 && 0 <= i < m
    ensures var v := Linspace(lo, hi, m)[i] - lo;
      v * (m - 1) <= i * (hi - lo) < (v + 1) * (m - 1)
  {
    DivBounds(i * (hi - lo), m - 1);
  }

  /** The values never decrease. */
  lemma LinspaceMonotone(lo: int, hi: int, m: nat, i: int, j: int)
    requires lo <= hi && 0 <= i <= j < m
    ensures Linspace(lo, hi, m)[i] <= Linspace(lo, hi, m)[j]
  {
    if m >= 2 {
      MulMonotone(i, j, hi - lo);
      DivMonotone(i * (hi - lo), j * (hi - lo), m - 1);
    }
  }

  /** When the range is at least as wide as the number of gaps, no value repeats. */
  lemma LinspaceStrictlyIncreasing(lo: int, hi: int, m: nat)
    requires lo <= hi && hi - lo >= m - 1
    ensures StrictlyIncreasing(Linspace(lo, hi, m))
  {
    var r := Linspace(lo, hi, m);
    if m >= 2 {
      var k := m - 1;
      var d := hi - lo;
      forall i, j | 0 <= i < j < m
        ensures r[i] < r[j]
      {
        assert r[i] == lo + (i * d) / k && r[j] == lo + (j * d) / k;
        SpreadApart(d, k, i, j);
      }
    }
  }

  /** Spreading a range of at least `k` over `k` gaps puts distinct points at distinct steps. */
  lemma SpreadApart(d: int, k: int, i: int, j: int)
    requires k > 0 && d >= k && 0 <= i < j
    ensures (i * d) / k < (j * d) / k
  {
    MulMonotone(1, j - i, d);
    assert j * d == i * d + (j - i) * d;
    DivMonotone(i * d + k, j * d, k);
    DivAddOne(i * d, k);
  }

  // ---------------------------------------------------------------------
  // Sampling of iterations

  /** How many iterations are drawn: half of them, rounded down, for the default sampling fraction of one half. */
  function SampleCount(n: nat): nat
  {
    n / 2
  }

  /**
   * `np.linspace(1, n - 1, n * 0.5, dtype=int)`: the positions in the sorted
   * key list that are drawn.
   */
  function SamplePositions(n: nat): (r: seq<int>)
    ensures |r| == SampleCount(n)
    ensures forall i :: 0 <= i < |r| ==> 1 <= r[i] <= n - 1
    ensures n >= 4 ==> r[0] == 1 && r[|r| - 1] == n - 1
    ensures n == 2 || n == 3 ==> r == [1]
  {
    if n < 2 then [] else Linspace(1, n - 1, SampleCount(n))
  }

  /** No position is sampled twice: there are at most as many samples as gaps between `1` and `n - 1`. */
  lemma SamplePositionsIncreasing(n: nat)
    ensures StrictlyIncreasing(SamplePositions(n))
  {
    if n >= 2 {
      var m := SampleCount(n);
      assert m <= n - 1;
      LinspaceStrictlyIncreasing(1, n - 1, m);
      assert SamplePositions(n) == Linspace(1, n - 1, m);
    } else {
      assert SamplePositions(n) == [];
    }
  }

  /** The iterations drawn, in drawing order: the sorted keys at the sampled positions. */
  function DrawnIterations(data: map<int, Record>): (d: seq<int>)
    ensures |d| == |data| / 2
    ensures forall i :: 0 <= i < |d| ==> d[i] in data
    ensures forall i :: 0 <= i < |d| ==> d[i] == SortedKeys(data.Keys)[SamplePositions(|data|)[i]]
  {
    var keys := SortedKeys(data.Keys);
    var positions := SamplePositions(|keys|);
    seq(|positions|, i requires 0 <= i < |positions| => keys[positions[i]])
  }

  /** No iteration is drawn twice, and they are drawn in ascending order. */
  lemma DrawnIterationsAscending(data: map<int, Record>)
    ensures StrictlyIncreasing(DrawnIterations(data))
  {
    var keys := SortedKeys(data.Keys);
    var positions := SamplePositions(|data|);
    var d := DrawnIterations(data);
    SortedKeysIncreasing(data.Keys);
    SamplePositionsIncreasing(|data|);
    forall i, j | 0 <= i < j < |d|
      ensures d[i] < d[j]
    {
      assert positions[i] < positions[j];
      assert d[i] == keys[positions[i]] && d[j] == keys[positions[j]];
    }
  }

  /** The smallest iteration is never drawn: every drawn one has a smaller one beside it. */
  lemma SmallestIterationNeverDrawn(data: map<int, Record>, i: int)
    requires 0 <= i < |data| / 2
    ensures exists k :: k in data && k < DrawnIterations(data)[i]
  {
    var keys := SortedKeys(data.Keys);
    var p := SamplePositions(|data|)[i];
    SortedKeysIncreasing(data.Keys);
    assert DrawnIterations(data)[i] == keys[p];
    assert keys[0] in data && keys[0] < keys[p];
  }

  /** From four iterations on, the largest iteration is drawn last: no iteration exceeds the last one drawn. */
  lemma LargestIterationDrawnLast(data: map<int, Record>, k: int)
    requires |data| >= 4 && k in data
    ensures k <= DrawnIterations(data)[|data| / 2 - 1]
  {
    var n := |data|;
    var keys := SortedKeys(data.Keys);
    var last := n / 2 - 1;
    assert SamplePositions(n)[last] == n - 1;
    assert DrawnIterations(data)[last] == keys[n - 1];
    assert k in keys;
    SortedKeysIncreasing(data.Keys);
    LastIsLargest(keys, k);
  }

  // ---------------------------------------------------------------------
  // The overlay figure

  /** A point of the colour ramp: `jet(step / steps)`, the `step`-th of `np.linspace(0, 1, steps + 1)`. */
  datatype Colour = RampColour(step: nat, steps: nat)

  /** The colour ramp of the overlay: `m + 1` evenly spaced steps, from the first colour to the last. */
  function Colours(m: nat): (c: seq<Colour>)
    ensures |c| == m + 1
    ensures forall j :: 0 <= j <= m ==> c[j].step == j && c[j].steps == m
  {
    seq(m + 1, j requires 0 <= j <= m => RampColour(j, m))
  }

  /** Python's `zip`: stops at the shorter sequence. */
  function Zip<A, B>(a: seq<A>, b: seq<B>): (z: seq<(A, B)>)
    ensures |z| == if |a| <= |b| then |a| else |b|
    ensures forall i :: 0 <= i < |z| ==> z[i] == (a[i], b[i])
  {
    var n := if |a| <= |b| then |a| else |b|;
    seq(n, i requires 0 <= i < n => (a[i], b[i]))
  }

  datatype Style = Solid(colour: Colour) | Dashed

  datatype Curve = Curve(legend: string, x: seq<string>, fx: seq<string>, style: Style)

  /** The curves in drawing order, which is also legend order, and the name the figure is saved under. */
  datatype Figure = Figure(curves: seq<Curve>, name: string)

  /**
   * The legend entry of a sampled curve: the sampled position (an index into
   * the sorted keys, not the iteration number), a dash, the expression and
   * its MSE in parentheses. The position is the entry's first field.
   */
  function OverlayLabel(position: int, rec: Record): (l: string)
    ensures l != "" && ParseInt(Fields(l)[0]) == Some(position)
  {
    var number := IntToString(position);
    var rest := "- " + rec.expression + " (MSE: " + rec.mse + ")";
    var l := number + " - " + rec.expression + " (MSE: " + rec.mse + ")";
    assert l == number + " " + rest;
    FirstField(number, rest);
    ParseIntToString(position);
    l
  }

  const OverlayPrefix: string := "All_Functions"

  /**
   * The name the overlay is saved under: the fixed prefix followed directly
   * by the words of the objective's expression, joined by underscores. It
   * starts with the prefix and holds no whitespace.
   */
  function OverlayName(objective: Record): (name: string)
    ensures |name| >= |OverlayPrefix| && name[..|OverlayPrefix|] == OverlayPrefix
    ensures Unbroken(name, IsWhitespace)
  {
    var words := Words(objective.expression);
    var tail := Join("_", words);
    JoinUnbroken("_", words, IsWhitespace);
    var name := OverlayPrefix + tail;
    forall j | 0 <= j < |name|
      ensures !IsWhitespace(name[j])
    {
      if j >= |OverlayPrefix| {
        assert name[j] == tail[j - |OverlayPrefix|];
      }
    }
    name
  }

  /** The curve for sorted position `p`, drawn in colour `c`. */
  function PositionCurve(data: map<int, Record>, p: int, c: Colour): Curve
    requires 0 <= p < |data|
  {
    var keys := SortedKeys(data.Keys);
    var rec := data[keys[p]];
    Curve(OverlayLabel(p, rec), rec.x, rec.fx, Solid(c))
  }

  /** The curve drawn for the `i`-th sampled position. */
  function SampledCurve(data: map<int, Record>, i: int): Curve
    requires 0 <= i < |data| / 2
  {
    PositionCurve(data, SamplePositions(|data|)[i], RampColour(i, |data| / 2))
  }

  /** Pairing `m` values with the `m + 1` colours of the ramp gives the `i`-th value the `i`-th colour. */
  lemma ZipWithColours<A>(a: seq<A>, m: nat)
    requires |a| == m
    ensures var z := Zip(a, Colours(m));
      |z| == m && forall i :: 0 <= i < m ==> z[i].0 == a[i] && z[i].1 == RampColour(i, m)
  {
  }

  /** The loop of `plotAll`: one curve per pair of `zip(selectedKeys, colors)`. */
  function SampledCurves(data: map<int, Record>): (cs: seq<Curve>)
    ensures |cs| == |data| / 2
    ensures forall i :: 0 <= i < |cs| ==> cs[i] == SampledCurve(data, i)
  {
    var positions := SamplePositions(|data|);
    var pairs := Zip(positions, Colours(|data| / 2));
    ZipWithColours(positions, |data| / 2);
    seq(|pairs|, i requires 0 <= i < |pairs| => PositionCurve(data, pairs[i].0, pairs[i].1))
  }

  /** `plotAll(data, objective)` with the default sampling fraction. */
  function PlotAll(data: map<int, Record>, objective: Record): (f: Figure)
    ensures |f.curves| == |data| / 2 + 1
    ensures f.curves[|f.curves| - 1] == Curve(objective.expression, objective.x, objective.fx, Dashed)
    ensures forall i :: 0 <= i < |f.curves| - 1 ==>
      var k := DrawnIterations(data)[i];
      && f.curves[i].legend == OverlayLabel(SamplePositions(|data|)[i], data[k])
      && f.curves[i].x == data[k].x
      && f.curves[i].fx == data[k].fx
      && f.curves[i].style == Solid(RampColour(i, |data| / 2))
    ensures f.name == OverlayName(objective)
  {
    var cs := SampledCurves(data);
    forall i | 0 <= i < |cs| {
      SampledCurveFields(data, i);
    }
    Figure(cs + [Curve(objective.expression, objective.x, objective.fx, Dashed)], OverlayName(objective))
  }

  /** The `i`-th sampled curve shows the `i`-th drawn iteration, labelled with its sorted position. */
  lemma SampledCurveFields(data: map<int, Record>, i: int)
    requires 0 <= i < |data| / 2
    ensures var k := DrawnIterations(data)[i];
      var c := SampledCurve(data, i);
      && c.legend == OverlayLabel(SamplePositions(|data|)[i], data[k])
      && c.x == data[k].x && c.fx == data[k].fx
      && c.style == Solid(RampColour(i, |data| / 2))
  {
    var p := SamplePositions(|data|)[i];
    assert DrawnIterations(data)[i] == SortedKeys(data.Keys)[p];
  }

  /**
   * For an objective whose expression is words separated by single spaces,
   * the name is the prefix followed directly by the words joined with `_`:
   * there is no separator between the prefix and the first word.
   */
  lemma OverlayNameOfWords(objective: Record, words: seq<string>)
    requires forall i :: 0 <= i < |words| ==> words[i] != "" && Unbroken(words[i], IsWhitespace)
    requires objective.expression == Join(" ", words)
    ensures OverlayName(objective) == OverlayPrefix + Join("_", words)
    ensures |words| == 1 ==> OverlayName(objective) == OverlayPrefix + objective.expression
  {
    WordsJoin(words);
  }
}

=== FILE: records.dfy ===
/**
 * Parsing of one log file (`parseExpressionFile`) and of the search log read
 * by `plotSearchStep`. A file is given as its lines; the csv reader turns
 * each line into the row `Fields(line)`. No value is converted to a number.
 */
module Records {
  import opened Wrappers
  import opened Text

  /** One iteration's log: the expression, its MSE and the sampled curve `(x, fx)`, all as text. */
  datatype Record = Record(expression: string, mse: string, x: seq<string>, fx: seq<string>)

  /** The search log: its (unused) first line and the step curve. */
  datatype SearchLog = SearchLog(expression: string, x: seq<string>, fx: seq<string>)

  /**
   * How reading a log fails, with the 1-based line concerned: `next()` found
   * no further line (StopIteration), or a row lacked the field being indexed
   * (IndexError).
   */
  datatype ParseError = MissingLine(line: nat) | ShortRow(line: nat)

  /** The rows the csv reader yields for the given lines. */
  function Rows(lines: seq<string>): (rows: seq<seq<string>>)
    ensures |rows| == |lines|
    ensures forall i :: 0 <= i < |lines| ==> rows[i] == Fields(lines[i])
  {
    seq(|lines|, i requires 0 <= i < |lines| => Fields(lines[i]))
  }

  /**
   * The `for row in lines` loop: field 0 of each row goes to `x`, field 1 to
   * `fx`; the first row with fewer than two fields raises IndexError.
   * `firstLine` is the line number of `rows[0]`.
   */
  function DataColumns(rows: seq<seq<string>>, firstLine: nat): (r: Result<(seq<string>, seq<string>), ParseError>)
    ensures r.Success? <==> forall i :: 0 <= i < |rows| ==> |rows[i]| >= 2
    ensures r.Success? ==>
      && |r.value.0| == |rows| && |r.value.1| == |rows|
      && forall i :: 0 <= i < |rows| ==> r.value.0[i] == rows[i][0] && r.value.1[i] == rows[i][1]
    ensures r.Failure? ==>
      exists i :: 0 <= i < |rows| && |rows[i]| < 2 && r.error == ShortRow(firstLine + i)
        && forall j :: 0 <= j < i ==> |rows[j]| >= 2
    decreases |rows|
  {
    if |rows| == 0 then Success(([], []))
    else if |rows[0]| < 2 then Failure(ShortRow(firstLine))
    else
      match DataColumns(rows[1..], firstLine + 1)
      case Failure(e) =>
        assert forall j :: 1 <= j < |rows| ==> rows[j] == rows[1..][j - 1];
        Failure(e)
      case Success(cols) =>
        Success(([rows[0][0]] + cols.0, [rows[0][1]] + cols.1))
  }

  /** `parseExpressionFile` on already split rows. */
  function ParseRows(rows: seq<seq<string>>): Result<Record, ParseError>
  {
    if |rows| == 0 then Failure(MissingLine(1))
    else
      var expression := Join(" ", rows[0]);
      if |rows| == 1 then Failure(MissingLine(2))
      else if |rows[1]| == 0 then Failure(ShortRow(2))
      else
        var cols :- DataColumns(rows[2..], 3);
        Success(Record(expression, rows[1][0], cols.0, cols.1))
  }

  /**
   * `parseExpressionFile`: line 1 is the expression, the first field of
   * line 2 the MSE, every later line one point `(x, fx)`.
   */
  function ParseExpressionFile(lines: seq<string>): (r: Result<Record, ParseError>)
    ensures r.Success? <==>
      && |lines| >= 2
      && lines[1] != ""
      && forall i :: 2 <= i < |lines| ==> |Fields(lines[i])| >= 2
    ensures |lines| < 2 ==> r == Failure(MissingLine(|lines| + 1))
    ensures |lines| >= 2 && lines[1] == "" ==> r == Failure(ShortRow(2))
    ensures r.Success? ==>
      && r.value.expression == lines[0]
      && r.value.mse == Fields(lines[1])[0]
      && |r.value.x| == |lines| - 2
      && |r.value.fx| == |lines| - 2
      && forall i :: 0 <= i < |lines| - 2 ==>
           r.value.x[i] == Fields(lines[i + 2])[0] && r.value.fx[i] == Fields(lines[i + 2])[1]
  {
    if |lines| == 0 then ParseRows(Rows(lines))
    else
      JoinFields(lines[0]);
      RowsAfter(lines, 2);
      ParseRows(Rows(lines))
  }

  /** The reading loop of `plotSearchStep` on already split rows. */
  function ParseSearchRows(rows: seq<seq<string>>): Result<SearchLog, ParseError>
  {
    if |rows| == 0 then Failure(MissingLine(1))
    else
      var cols :- DataColumns(rows[1..], 2);
      Success(SearchLog(Join(" ", rows[0]), cols.0, cols.1))
  }

  /**
   * The reading loop of `plotSearchStep`: one header line, then one point
   * `(x, fx)` per line.
   */
  function ParseSearchLog(lines: seq<string>): (r: Result<SearchLog, ParseError>)
    ensures r.Success? <==> |lines| >= 1 && forall i :: 1 <= i < |lines| ==> |Fields(lines[i])| >= 2
    ensures |lines| == 0 ==> r == Failure(MissingLine(1))
    ensures r.Success? ==>
      && r.value.expression == lines[0]
      && |r.value.x| == |lines| - 1
      && |r.value.fx| == |lines| - 1
      && forall i :: 0 <= i < |lines| - 1 ==>
           r.value.x[i] == Fields(lines[i + 1])[0] && r.value.fx[i] == Fields(lines[i + 1])[1]
  {
    if |lines| == 0 then ParseSearchRows(Rows(lines))
    else
      JoinFields(lines[0]);
      RowsAfter(lines, 1);
      ParseSearchRows(Rows(lines))
  }

  /** The rows after the first `k` lines are the rows of the later lines. */
  lemma RowsAfter(lines: seq<string>, k: nat)
    ensures k <= |lines| ==> forall i :: 0 <= i < |lines| - k ==> Rows(lines)[k..][i] == Fields(lines[i + k])
  {
  }

  // ---------------------------------------------------------------------

  /** The text of a log file for `rec`: the expression, the MSE, then one `x fx` line per point. */
  function Render(rec: Record): (lines: seq<string>)
    requires |rec.x| == |rec.fx|
  {
    [rec.expression, rec.mse] + seq(|rec.x|, i requires 0 <= i < |rec.x| => rec.x[i] + " " + rec.fx[i])
  }

  /** A record whose MSE and values are single space-free fields. */
  predicate Writable(rec: Record)
  {
    && |rec.x| == |rec.fx|
    && rec.mse != "" && Unbroken(rec.mse, IsSpace)
    && forall i :: 0 <= i < |rec.x| ==> Unbroken(rec.x[i], IsSpace) && Unbroken(rec.fx[i], IsSpace)
  }

  /** Parsing the file written for a record gives the record back. */
  lemma {:induction false} ParseRendered(rec: Record)
    requires Writable(rec)
    ensures ParseExpressionFile(Render(rec)) == Success(rec)
  {
    var lines := Render(rec);
    FieldsJoin([rec.mse]);
    forall i | 0 <= i < |rec.x|
      ensures Fields(lines[i + 2]) == [rec.x[i], rec.fx[i]]
    {
      RenderedRow(rec, i);
    }
    ParsedPoints(lines, rec);
  }

  /** The line written for point `i` reads back as the two fields of that point. */
  lemma RenderedRow(rec: Record, i: int)
    requires Writable(rec) && 0 <= i < |rec.x|
    ensures Fields(Render(rec)[i + 2]) == [rec.x[i], rec.fx[i]]
  {
    assert Render(rec)[i + 2] == Join(" ", [rec.x[i], rec.fx[i]]);
    FieldsJoin([rec.x[i], rec.fx[i]]);
  }

  /** Lines whose header and rows carry the fields of `rec` parse to `rec`. */
  lemma ParsedPoints(lines: seq<string>, rec: Record)
    requires |rec.x| == |rec.fx| && |lines| == |rec.x| + 2
    requires lines[0] == rec.expression && Fields(lines[1]) == [rec.mse]
    requires forall i :: 0 <= i < |rec.x| ==> Fields(lines[i + 2]) == [rec.x[i], rec.fx[i]]
    ensures ParseExpressionFile(lines) == Success(rec)
  {
    assert forall i :: 2 <= i < |lines| ==> Fields(lines[i]) == [rec.x[i - 2], rec.fx[i - 2]];
    var r := ParseExpressionFile(lines);
    assert r.Success?;
    assert r.value.x == rec.x;
    assert r.value.fx == rec.fx;
  }

  // ---------------------------------------------------------------------

  /** Two files whose rows agree on every field the parser reads. */
  predicate SameReadFields(a: seq<seq<string>>, b: seq<seq<string>>)
  {
    && |a| == |b| >= 2
    && a[0] == b[0]
    && |a[1]| >= 1 && |b[1]| >= 1 && a[1][0] == b[1][0]
    && forall i :: 2 <= i < |a| ==> |a[i]| >= 2 && |b[i]| >= 2 && a[i][..2] == b[i][..2]
  }

  /** Fields after the MSE on line 2, and after the second field of a data row, are ignored. */
  lemma {:induction false} ExtraFieldsIgnored(a: seq<seq<string>>, b: seq<seq<string>>)
    requires SameReadFields(a, b)
    ensures ParseRows(a).Success? && ParseRows(a) == ParseRows(b)
  {
    var ca := DataColumns(a[2..], 3);
    var cb := DataColumns(b[2..], 3);
    assert forall i :: 0 <= i < |a| - 2 ==> |a[2..][i]| >= 2 && |b[2..][i]| >= 2;
    forall i | 0 <= i < |a| - 2
      ensures a[2..][i][0] == b[2..][i][0] && a[2..][i][1] == b[2..][i][1]
    {
      assert a[i + 2][..2] == b[i + 2][..2];
      assert a[i + 2][0] == a[i + 2][..2][0] && a[i + 2][1] == a[i + 2][..2][1];
      assert b[i + 2][0] == b[i + 2][..2][0] && b[i + 2][1] == b[i + 2][..2][1];
    }
    assert ca.value.0 == cb.value.0;
    assert ca.value.1 == cb.value.1;
  }
}

=== FILE: text.dfy ===
/**
 * The string operations of Python that the plotting script relies on:
 * `sep.join(parts)`, splitting a line at a one-character delimiter (what the
 * csv reader does with `delimiter=' '` when no quoting occurs), `str.split()`
 * without argument, `str.rfind`, the `in` test on strings and slicing with
 * Python's index conventions.
 */
module Text {

  /** The parts one after the other with `sep` between neighbours (Python's `str.join`). */
  function Join(sep: string, parts: seq<string>): string
  {
    if |parts| == 0 then ""
    else if |parts| == 1 then parts[0]
    else parts[0] + sep + Join(sep, parts[1..])
  }

  /** No character of `w` is a separator. */
  predicate Unbroken(w: string, isSep: char -> bool)
  {
    forall j :: 0 <= j < |w| ==> !isSep(w[j])
  }

  /**
   * Cuts `s` at every character satisfying `isSep`, keeping empty pieces
   * (Python's `s.split(c)` for a single separator character).
   */
  function SplitAt(s: string, isSep: char -> bool): (pieces: seq<string>)
    ensures |pieces| >= 1
    ensures forall i :: 0 <= i < |pieces| ==> Unbroken(pieces[i], isSep)
  {
    if |s| == 0 then [""]
    else
      var rest := SplitAt(s[1..], isSep);
      if isSep(s[0]) then [""] + rest
      else [[s[0]] + rest[0]] + rest[1..]
  }

  /** The field delimiter of the log files. */
  predicate IsSpace(c: char)
  {
    c == ' '
  }

  /**
   * The fields the csv reader yields for one line with `delimiter=' '`:
   * an empty line is an empty row, any other line is cut at every space.
   */
  function Fields(line: string): (row: seq<string>)
    ensures row == [] <==> line == ""
    ensures forall i :: 0 <= i < |row| ==> Unbroken(row[i], IsSpace)
  {
    if line == "" then [] else SplitAt(line, IsSpace)
  }

  /**
   * The characters Python's `str.isspace` accepts, which `str.split()`
   * splits at. (`int()` skips only part of them: see `Integers.IsIntSpace`.)
   */
  predicate IsWhitespace(c: char)
  {
    || c == '\t' || c == '\n' || c == '\U{000B}' || c == '\U{000C}' || c == '\r'
    || c == '\U{001C}' || c == '\U{001D}' || c == '\U{001E}' || c == '\U{001F}'
    || c == ' ' || c == '\U{0085}' || c == '\U{00A0}' || c == '\U{1680}'
    || ('\U{2000}' <= c <= '\U{200A}')
    || c == '\U{2028}' || c == '\U{2029}' || c == '\U{202F}' || c == '\U{205F}' || c == '\U{3000}'
  }

  /** The non-empty members of `pieces`, in order. */
  function NonEmpty(pieces: seq<string>): (r: seq<string>)
    ensures forall i :: 0 <= i < |r| ==> r[i] != ""
    ensures forall w :: w in r <==> w in pieces && w != ""
    ensures |pieces| == 1 ==> r == (if pieces[0] == "" then [] else pieces)
  {
    if |pieces| == 0 then []
    else if pieces[0] == "" then NonEmpty(pieces[1..])
    else [pieces[0]] + NonEmpty(pieces[1..])
  }

  /** `s.split()`: the maximal runs of non-whitespace characters. */
  function Words(s: string): (words: seq<string>)
    ensures forall i :: 0 <= i < |words| ==> words[i] != "" && Unbroken(words[i], IsWhitespace)
  {
    var pieces := SplitAt(s, IsWhitespace);
    var r := NonEmpty(pieces);
    assert forall i :: 0 <= i < |r| ==> r[i] in pieces;
    r
  }

  /** `pat` occurs in `s` starting at index `i`. */
  predicate OccursAt(s: string, pat: string, i: int)
  {
    0 <= i && i + |pat| <= |s| && s[i..i + |pat|] == pat
  }

  /** The largest `j <= i` at which `pat` occurs in `s`, or -1. */
  function FindLastFrom(s: string, pat: string, i: int): (r: int)
    requires i <= |s| - |pat|
    ensures r == -1 || 0 <= r <= i
    ensures r >= 0 ==> OccursAt(s, pat, r)
    ensures forall j :: r < j <= i ==> !OccursAt(s, pat, j)
    decreases i + 1
  {
    if i < 0 then -1
    else if OccursAt(s, pat, i) then i
    else FindLastFrom(s, pat, i - 1)
  }

  /** `s.rfind(pat)`: the index of the last occurrence of `pat`, or -1. */
  function FindLast(s: string, pat: string): (r: int)
    ensures r == -1 || 0 <= r <= |s| - |pat|
    ensures r >= 0 ==> OccursAt(s, pat, r)
    ensures forall j :: r < j <= |s| - |pat| ==> !OccursAt(s, pat, j)
    ensures r == -1 <==> forall j :: 0 <= j <= |s| - |pat| ==> !OccursAt(s, pat, j)
  {
    if |pat| > |s| then -1 else FindLastFrom(s, pat, |s| - |pat|)
  }

  /** `rfind` returns an occurrence with no occurrence after it. */
  lemma FindLastIs(s: string, pat: string, j: int)
    requires OccursAt(s, pat, j)
    requires forall k :: j < k <= |s| - |pat| ==> !OccursAt(s, pat, k)
    ensures FindLast(s, pat) == j
  {
  }

  /** `pat` occurs somewhere in `s` (Python's `in` on strings). */
  predicate Contains(s: string, pat: string)
  {
    FindLast(s, pat) >= 0
  }

  /** Python's normalisation of a slice bound against a sequence of length `n`. */
  function SliceBound(i: int, n: nat): (r: nat)
    ensures r <= n
    ensures 0 <= i <= n ==> r == i
    ensures i < 0 && 0 <= i + n ==> r == i + n
    ensures i > n ==> r == n
    ensures i + n < 0 ==> r == 0
  {
    if i < 0 then (if i + n < 0 then 0 else i + n)
    else if i > n then n
    else i
  }

  /** `s[a:b]` with Python's handling of negative and out-of-range bounds. */
  function Slice(s: string, a: int, b: int): (r: string)
    ensures SliceBound(a, |s|) <= SliceBound(b, |s|) ==> r == s[SliceBound(a, |s|)..SliceBound(b, |s|)]
    ensures SliceBound(b, |s|) < SliceBound(a, |s|) ==> r == ""
  {
    var lo := SliceBound(a, |s|);
    var hi := SliceBound(b, |s|);
    if lo <= hi then s[lo..hi] else ""
  }

  // ---------------------------------------------------------------------
  // Joining and splitting are inverse to each other.

  /** Re-joining the pieces with the one separator character gives back the text. */
  lemma {:induction false} JoinSplitAt(s: string, sep: char, isSep: char -> bool)
    requires forall c :: isSep(c) <==> c == sep
    ensures Join([sep], SplitAt(s, isSep)) == s
    decreases |s|
  {
    if |s| > 0 {
      var rest := SplitAt(s[1..], isSep);
      JoinSplitAt(s[1..], sep, isSep);
      if isSep(s[0]) {
        assert SplitAt(s, isSep) == [""] + rest;
        assert ([""] + rest)[1..] == rest;
        assert s == [s[0]] + s[1..];
      } else {
        var pieces := [[s[0]] + rest[0]] + rest[1..];
        assert SplitAt(s, isSep) == pieces;
        if |rest| == 1 {
          assert Join([sep], pieces) == [s[0]] + rest[0];
        } else {
          assert pieces[1..] == rest[1..];
          assert Join([sep], rest) == rest[0] + [sep] + Join([sep], rest[1..]);
          assert Join([sep], pieces) == [s[0]] + rest[0] + [sep] + Join([sep], rest[1..]);
        }
        assert s == [s[0]] + s[1..];
      }
    }
  }

  /** A piece free of separators, followed by a separator, splits off as one piece. */
  lemma {:induction false} SplitAtCons(w: string, sep: char, rest: string, isSep: char -> bool)
    requires isSep(sep) && Unbroken(w, isSep)
    ensures SplitAt(w + [sep] + rest, isSep) == [w] + SplitAt(rest, isSep)
    decreases |w|
  {
    var s := w + [sep] + rest;
    if |w| == 0 {
      assert s[1..] == rest;
    } else {
      assert s[1..] == w[1..] + [sep] + rest;
      SplitAtCons(w[1..], sep, rest, isSep);
      assert [w[0]] + w[1..] == w;
    }
  }

  /** A piece free of separators splits into itself. */
  lemma {:induction false} SplitAtUnbroken(w: string, isSep: char -> bool)
    requires Unbroken(w, isSep)
    ensures SplitAt(w, isSep) == [w]
    decreases |w|
  {
    if |w| > 0 {
      SplitAtUnbroken(w[1..], isSep);
      assert [w[0]] + w[1..] == w;
    }
  }

  /** Splitting the joined pieces gives back the pieces when none contains a separator. */
  lemma {:induction false} SplitAtJoin(parts: seq<string>, sep: char, isSep: char -> bool)
    requires isSep(sep) && |parts| >= 1
    requires forall i :: 0 <= i < |parts| ==> Unbroken(parts[i], isSep)
    ensures SplitAt(Join([sep], parts), isSep) == parts
    decreases |parts|
  {
    if |parts| == 1 {
      SplitAtUnbroken(parts[0], isSep);
    } else {
      SplitAtJoin(parts[1..], sep, isSep);
      SplitAtCons(parts[0], sep, Join([sep], parts[1..]), isSep);
      assert [parts[0]] + parts[1..] == parts;
    }
  }

  /** A line is exactly its csv fields joined by single spaces. */
  lemma {:induction false} JoinFields(line: string)
    ensures Join(" ", Fields(line)) == line
  {
    if line != "" {
      JoinSplitAt(line, ' ', IsSpace);
    }
  }

  /** Fields without spaces, joined by single spaces, read back as the same fields. */
  lemma {:induction false} FieldsJoin(fields: seq<string>)
    requires fields != [""]
    requires forall i :: 0 <= i < |fields| ==> Unbroken(fields[i], IsSpace)
    ensures Fields(Join(" ", fields)) == fields
  {
    if |fields| > 0 {
      SplitAtJoin(fields, ' ', IsSpace);
      if |fields| == 1 {
        assert Join(" ", fields) != "";
      } else {
        assert |Join(" ", fields)| >= 1;
      }
    }
  }

  /** `NonEmpty` leaves a sequence of non-empty strings unchanged. */
  lemma {:induction false} NonEmptyKeeps(pieces: seq<string>)
    requires forall i :: 0 <= i < |pieces| ==> pieces[i] != ""
    ensures NonEmpty(pieces) == pieces
    decreases |pieces|
  {
    if |pieces| > 0 {
      NonEmptyKeeps(pieces[1..]);
      assert [pieces[0]] + pieces[1..] == pieces;
    }
  }

  /** `" ".join(words).split()` gives back the words when they are non-empty and whitespace-free. */
  lemma {:induction false} WordsJoin(words: seq<string>)
    requires forall i :: 0 <= i < |words| ==> words[i] != "" && Unbroken(words[i], IsWhitespace)
    ensures Words(Join(" ", words)) == words
  {
    if |words| > 0 {
      assert IsWhitespace(' ');
      SplitAtJoin(words, ' ', IsWhitespace);
      assert SplitAt(Join(" ", words), IsWhitespace) == words;
      NonEmptyKeeps(words);
    } else {
      assert SplitAt("", IsWhitespace) == [""];
      assert NonEmpty([""]) == NonEmpty([""][1..]) == [];
    }
  }

  /** A line that starts with a space-free word followed by a space has that word as its first field. */
  lemma {:induction false} FirstField(w: string, rest: string)
    requires Unbroken(w, IsSpace)
    ensures Fields(w + " " + rest) == [w] + SplitAt(rest, IsSpace)
  {
    SplitAtCons(w, ' ', rest, IsSpace);
  }

  /** Dropping the empty pieces of two sequences one after the other drops them from the whole. */
  lemma {:induction false} NonEmptyConcat(a: seq<string>, b: seq<string>)
    ensures NonEmpty(a + b) == NonEmpty(a) + NonEmpty(b)
    decreases |a|
  {
    if |a| > 0 {
      assert (a + b)[1..] == a[1..] + b;
      NonEmptyConcat(a[1..], b);
    } else {
      assert a + b == b;
    }
  }

  /** A separator splits the text into the pieces before it followed by the pieces after it. */
  lemma {:induction false} SplitAtSeparator(a: string, c: char, b: string, isSep: char -> bool)
    requires isSep(c)
    ensures SplitAt(a + [c] + b, isSep) == SplitAt(a, isSep) + SplitAt(b, isSep)
    decreases |a|
  {
    var s := a + [c] + b;
    if |a| == 0 {
      assert s[1..] == b;
    } else {
      assert s[1..] == a[1..] + [c] + b;
      SplitAtSeparator(a[1..], c, b, isSep);
    }
  }

  /**
   * `str.split()` on any text: a whitespace character separates the words
   * before it from the words after it, and text without whitespace is one
   * word, or none when it is empty. These two facts determine `Words` on
   * every input.
   */
  lemma {:induction false} WordsAtWhitespace(a: string, c: char, b: string)
    requires IsWhitespace(c)
    ensures Words(a + [c] + b) == Words(a) + Words(b)
  {
    SplitAtSeparator(a, c, b, IsWhitespace);
    NonEmptyConcat(SplitAt(a, IsWhitespace), SplitAt(b, IsWhitespace));
  }

  /** Text without whitespace is a single word, or no word when it is empty. */
  lemma {:induction false} WordsOfWord(w: string)
    requires Unbroken(w, IsWhitespace)
    ensures w != "" ==> Words(w) == [w]
    ensures w == "" ==> Words(w) == []
  {
    SplitAtUnbroken(w, IsWhitespace);
    if w != "" {
      assert NonEmpty([w]) == [w] + NonEmpty([]);
    } else {
      assert NonEmpty([""]) == NonEmpty([""][1..]) == [];
    }
  }

  /** `in` holds exactly when `pat` occurs somewhere in `s`. */
  lemma ContainsOccurs(s: string, pat: string)
    ensures Contains(s, pat) <==> exists i :: OccursAt(s, pat, i)
  {
    if !Contains(s, pat) {
      forall i | OccursAt(s, pat, i)
        ensures false
      {
      }
    }
  }

  /** Joining separator-free pieces with a separator-free glue gives separator-free text. */
  lemma {:induction false} JoinUnbroken(sep: string, parts: seq<string>, isSep: char -> bool)
    requires Unbroken(sep, isSep)
    requires forall i :: 0 <= i < |parts| ==> Unbroken(parts[i], isSep)
    ensures Unbroken(Join(sep, parts), isSep)
    decreases |parts|
  {
    if |parts| > 1 {
      JoinUnbroken(sep, parts[1..], isSep);
      var rest := Join(sep, parts[1..]);
      var whole := parts[0] + sep + rest;
      forall j | 0 <= j < |whole|
        ensures !isSep(whole[j])
      {
        if j < |parts[0]| {
          assert whole[j] == parts[0][j];
        } else if j < |parts[0]| + |sep| {
          assert whole[j] == sep[j - |parts[0]|];
        } else {
          assert whole[j] == rest[j - |parts[0]| - |sep|];
        }
      }
    }
  }
}

=== FILE: wrappers.dfy ===
/** Failure-compatible result types used for the exceptions the plotting script raises. */
module Wrappers {

  datatype Option<+T> = None | Some(value: T)

  datatype Result<+T, +E> = Success(value: T) | Failure(error: E) {

    predicate IsFailure() {
      Failure?
    }

    function PropagateFailure<U>(): Result<U, E>
      requires Failure?
    {
      Failure(error)
    }

    function Extract(): T
      requires Success?
    {
      value
    }
  }
}
